=== FILE: README.md ===
# ComfyUI-DiffusersLoader, modelled in Dafny

ComfyUI-DiffusersLoader is a set of ComfyUI nodes that load Hugging Face
"diffusers" model folders. A model folder holds one sub-directory per
component: `text_encoder`, `text_encoder_2`, `unet` or `transformer`, `vae`,
and so on. The nodes do four things:

- list the model folders a user can pick;
- classify a folder into a model family by the sub-directories it has;
- pick a weights file (`.safetensors`, sometimes `.bin`) in a component
  folder;
- hand the chosen paths to the host's loaders (`comfy.sd.load_unet`,
  `comfy.sd.load_clip`, `comfy.utils.load_torch_file` + `comfy.sd.VAE`).

Some UNET nodes react to a failed load by renaming the `unet` folder to
`unet.corrupted`.

This project models that logic over an immutable filesystem snapshot.
`Fs.Snapshot` maps absolute paths to files and directories. Directories carry
ordered listings, and every entry carries read/write permission bits.
Paths are normalised name sequences (`Paths.Path`). `Join` follows
`os.path.join`: an absolute right operand wins.

Every operation is a pure function. Failures are a `Result` whose error
carries the Python exception class (`Outcomes.ErrorKind`) and the path it
names. Calls that leave the plugin are function-typed parameters:

- `Host.Comfy` holds the host's loaders and the `tokenize` attribute test;
- `FileLoaders.Readers` holds `safe_open` and `json.load`;
- `Host.Utils` holds the `DiffusersUtils` helpers, which are not part of
  this model.

Each node returns the ordered trace of the calls it made (`Host.Call`). That
is how "checked before loaded", "never called" and load order are stated. The
nodes that can rename return the snapshot afterwards too (`Host.Step`).

Modules, following the repository's files:

| module | file | models |
|---|---|---|
| Paths, Outcomes, Fs | paths.dfy, outcomes.dfy, fs.dfy | paths and `os.path.join`, exceptions, the snapshot and `os.listdir` |
| Families | families.dfy | `detect_model_type` (four-way and two-way rules), model_type_config.py |
| Discovery | discovery.dfy | the pruned and unpruned `os.walk` listings and the immediate sub-directory listings |
| Weights | weights.dfy | the `find_model_file` / `find_safetensors_file` variants |
| Layout | layout.dfy | folder_paths.py, the fixed folder and file names, loader.py's path resolution |
| ClipTypes | clip_types.dfy | the two CLIP-type mappings |
| Quarantine | quarantine.dfy | `handle_corrupted_file` (`os.rename`) and the three failure policies |
| Host | host.dfy | the foreign calls and the traces |
| FileLoaders | file_loaders.dfy | utils.py |
| CheckpointNodes | checkpoint_nodes.dfy | loader.py |
| UnetNodes | unet_nodes.dfy | diffusers_unet_loader.py, unet_loader.py, sd15_unet_loader.py, sdxl_unet_loader.py |
| ClipNodes | clip_nodes.dfy | clip_loader.py, diffusers_clip_loader.py, sd15_clip_loader.py, sdxl_clip_loader.py |
| VaeNodes | vae_nodes.dfy | diffusers_vae_loader.py, sdxl_vae_loader.py, Old/sd15_vae_loader.py |
| CombinedNodes | combined_nodes.dfy | sd15_combined_loader.py, sdxl_combined_loader.py |

### Shared helpers

Several source files contain near-copies of the same helper. Each helper is
modelled once, with parameters for the variants:

- **Walks.** The three pruned walks are `Discovery.DiffusersChoices` and
  `Discovery.CheckedDiffusersChoices`. They prune `vae`, `unet`,
  `text_encoder` and `text_encoder_2`. The CLIP and VAE nodes call a raising
  `get_base_path` first; the UNET node does not.
- **Sub-directory listings.** `Discovery.SubDirectoryList` covers the
  listings that swallow a missing base: sd15_unet_loader.py:4-15, the same
  function in sdxl_unet_loader.py, sd15_clip_loader.py:6-22 and
  sd15_combined_loader.py:8-17. `Discovery.ImmediateDirs` covers those that
  raise: sdxl_clip_loader.py:6-20, sdxl_vae_loader.py:16-18,
  Old/sd15_vae_loader.py:16-18 and sdxl_combined_loader.py:15-17.
- **Weights lookup.** The `find_*` helpers are `Weights.FindWeightName`,
  which returns the bare name, and `Weights.FindWeightPath`, which returns
  the joined path. The `Weights.Accept` argument says whether `.bin` files
  are accepted.
- **Rename.** The five `handle_corrupted_file` copies are
  `Quarantine.HandleCorrupted`. Each copy re-raises the rename's own error,
  and re-raising a PermissionError that names the folder is the same error
  in this model.

### Design notes

- Family detection is by folder shape only. The manifest is never read.
- No "ambiguous" tag exists. The four-way rule calls a text_encoder +
  text_encoder_2 + transformer folder SDXL, and never yields Flux.
- Every node except `DiffusersUNETLoader` in unet_loader.py and
  `DiffusersClipLoader` in clip_loader.py computes its root as
  `abspath(dirname(__file__)/../..)` (`Layout.InstallOf`), and takes the
  resulting `Layout.Install` as a parameter. The two excepted nodes take
  their base from `DiffusersUtils.get_base_path()`, which is the
  `basePath` field of `Host.Utils`. For the files at the top of the plugin
  that root is the ComfyUI installation. Old/sd15_vae_loader.py sits one folder deeper, so its root
  is the plugin's parent directory (`custom_nodes`). It therefore reads
  `custom_nodes/models/diffusers/SD15`, not the folder the other SD1.5 nodes
  read (`Layout.OldNodeRootIsPluginParent`).

## Model

| member | source | states |
|---|---|---|
| Paths.Join | sd15_combined_loader.py:37 | `os.path.join`: an absolute right operand replaces the left one; otherwise the components follow the left operand's and its absoluteness is kept |
| Paths.JoinAbsoluteIsIdentity | sd15_combined_loader.py:36-37 | joining an absolute found path onto its folder again leaves it unchanged |
| Paths.RenderDotOnlyForBase | diffusers_unet_loader.py:13 | a relative walk result renders as "." exactly for the base itself |
| Discovery.BaseOfferedAsDot | diffusers_unet_loader.py:11-15 | the UNET node offers the entry "." iff models/diffusers itself holds model_index.json, and "." then names only that folder |
| Fs.ListDir | sdxl_vae_loader.py:18 | `os.listdir` succeeds exactly on a readable directory and returns its listing in order; a missing path raises FileNotFoundError naming it |
| Fs.ListedNameExists | sd15_clip_loader.py:40-46 | on a consistent snapshot every listed name exists under its directory |
| Families.FourWayRule | base_loader.py:13-22 | SD3 iff text_encoder_3 and transformer; SDXL iff both text encoders but not SD3; AuraFlow iff text_encoder and transformer with neither later encoder; SD15 iff text_encoder alone without text_encoder_2 or transformer; no result otherwise; range {SD3, SDXL, AuraFlow, SD15} |
| Families.DetectFourWay | base_loader.py:7-22 | succeeds iff text_encoder exists or text_encoder_3 and transformer both exist; SD3 iff the latter two; the error is FileNotFoundError naming the folder |
| Families.FourWayIgnoresOtherEntries | base_loader.py:8-22 | the result depends only on text_encoder, text_encoder_2, text_encoder_3 and transformer |
| Families.DetectFourWayDependsOnProbesOnly | base_loader.py:8-22 | two folders that agree on those four entries are classified alike |
| Families.FourWayPrecedence | base_loader.py:13-16 | a folder meeting both the SD3 and the SDXL conditions is SD3, and one with both encoders and a transformer but no text_encoder_3 is SDXL, never Flux |
| Families.TwoWayRule | diffusers_unet_loader.py:84-89 | SDXL iff both text encoders, SD15 iff text_encoder without text_encoder_2, no result without text_encoder (text_encoder_2 alone included) |
| Families.DetectTwoWay | diffusers_clip_loader.py:56-65 | succeeds iff text_encoder exists; SDXL iff both encoders exist; the result is SD15 or SDXL; the error is FileNotFoundError naming the folder |
| Families.TwoWayAgreesWithoutTransformer | diffusers_vae_loader.py:69-79 | without a transformer or text_encoder_3 the two-way rule and the four-way rule agree |
| Families.SD15AndSD21DifferOnlyInExtras | model_type_config.py:2-15 | SD15 and SD21 share class name, required and absent components, and differ in feature extractor and safety-checker flag |
| Families.CriteriaWellFormed | model_type_config.py:1-32 | no family both requires and forbids a component; every family requires text_encoder, vae, scheduler and tokenizer |
| Families.CriteriaRelations | model_type_config.py:16-31 | SDXL requires SD15's set plus text_encoder_2 and tokenizer_2; AuraFlow and Flux require the same set and differ only in class name |
| Families.FourWayOnRequiredShapes | model_type_config.py:1-32 | a folder holding exactly a family's required components is classified SD3, SDXL, SD15 (for SD15 and SD21) or AuraFlow (for AuraFlow and Flux) |
| Families.RequiredProbes | model_type_config.py:1-32 | every family requires text_encoder; text_encoder_2 is required exactly by SDXL and SD3, text_encoder_3 only by SD3, transformer exactly by SD3, AuraFlow and Flux |
| Families.TwoWayOnRequiredShapes | model_type_config.py:1-32 | the two-way rule classifies the SDXL shape as SDXL and the SD15/SD21 shapes as SD15 |
| Discovery.ModelDirectories | diffusers_unet_loader.py:9-18 | a missing base gives []; no listed directory passes through a pruned name |
| Discovery.WalkFrom | diffusers_unet_loader.py:11-15 | an unreadable or missing top yields nothing; the walk is top-down, so a top holding model_index.json is reported first, and the top itself is reported iff it holds model_index.json |
| Discovery.Descend | diffusers_unet_loader.py:11-15 | every path reported while walking the entries of a directory starts with one of those entries that is an unpruned sub-directory |
| Discovery.WalkExact | diffusers_unet_loader.py:11-15 | the walk lists a directory exactly when it holds a model_index.json file and is reachable from the base through readable directories whose names are not pruned; listing continues below a model directory |
| Discovery.DiffusersWalkExact | diffusers_vae_loader.py:16-26 | a relative path is among the pruned walk's results iff it is listed below the base without entering a pruned directory |
| Discovery.UnprunedWalkExact | loader.py:9-13 | a relative path is among the unpruned walk's results iff it holds the manifest and is reached through readable directories |
| Discovery.ReachesAvoidsPruned | diffusers_unet_loader.py:15 | no step of a walked path is vae, unet, text_encoder or text_encoder_2, at any depth |
| Discovery.ReachesReadableDir | loader.py:11-13 | every directory the walk yields is a readable directory |
| Discovery.DiffusersChoices | diffusers_unet_loader.py:34-42 | the diffusers UNET node offers exactly the relative paths of the pruned walk below models/diffusers, and nothing when that is missing |
| Discovery.CheckedDiffusersChoices | diffusers_clip_loader.py:31-40 | the diffusers CLIP and VAE nodes raise FileNotFoundError naming models/diffusers when it is missing, and otherwise offer the pruned walk |
| Discovery.ImmediateDirs | sdxl_vae_loader.py:16-18 | exactly the listed entries that are directories; a missing base raises FileNotFoundError naming it; other listing errors propagate |
| Discovery.DirsAmong | sdxl_vae_loader.py:18 | a name is kept iff it is among the listed names and is a directory there; listing order and length are kept when every name is a directory |
| Discovery.SubDirectoryList | sd15_unet_loader.py:4-15 | a missing base gives []; otherwise exactly the immediate directories |
| Weights.FirstAccepted | diffusers_unet_loader.py:94-96 | the position of the first listing entry with an accepted suffix, and none when no entry has one |
| Weights.FindWeightName | diffusers_clip_loader.py:25-29 | the bare name of the first listing entry ending ".safetensors" (or ".bin" when accepted); FileNotFoundError naming the folder when none; listing errors propagate |
| Weights.FindWeightPath | diffusers_unet_loader.py:92-97 | the folder joined with that same first accepted entry, with the same errors |
| Weights.SafetensorsOnlyNeverBin | sd15_unet_loader.py:63-67 | the ".safetensors"-only lookup never returns a ".bin" file |
| Weights.FoundWeightExists | sd15_clip_loader.py:40-46 | on a consistent snapshot the name the lookup returns exists in the folder |
| Weights.WiderAcceptPicksNoLater | Old/sd15_vae_loader.py:21-25 | accepting ".bin" too never picks an entry later than the ".safetensors"-only lookup does |
| ClipTypes.ClipTypeOf | clip_loader.py:54-64 | total; "stable_diffusion", "sdxl" and every unknown key give STABLE_DIFFUSION; "stable_cascade", "sd3", "stable_audio" and "flux" each give their own type |
| ClipTypes.CascadeOrDefault | diffusers_clip_loader.py:67-70 | "stable_cascade" gives STABLE_CASCADE and anything else STABLE_DIFFUSION |
| ClipTypes.ClipTypeMappingsAgreeOnOfferedKeys | clip_loader.py:55-64 | the two mappings agree on the two keys the smaller nodes offer and part on "sd3" |
| Layout.FolderPaths | folder_paths.py:7-15 | "diffusers" and "embeddings" each map to the one folder under models; anything else to []; never more than one path |
| Layout.InstallOf | folder_paths.py:3-5 | the root is the module's directory with its last two components removed, or the filesystem root when it has fewer |
| Layout.OldNodeRootIsPluginParent | Old/sd15_vae_loader.py:7-10 | a module in Old/ gets the plugin's parent as its root, one component deeper than, and different from, the root of a top-level module |
| Layout.ExistingBase | diffusers_vae_loader.py:7-13 | the base when it exists, FileNotFoundError naming it otherwise |
| Layout.FirstHit | loader.py:22-27 | the first search path that exists and under which the joined model path exists |
| Layout.ResolveModelPath | loader.py:21-29 | the model path joined onto the first search path where the join exists, unchanged when there is none |
| Layout.UnetFolderName | unet_loader.py:30-33 | transformer exactly for SD3, unet for every other family, AuraFlow included |
| Layout.EncoderDirs | clip_loader.py:66-93 | text_encoder first; three directories for SD3, two for SDXL and Flux, one otherwise, in order |
| Layout.EncoderDirsAgainstCriteria | clip_loader.py:70-92 | every encoder directory a family reads is one it requires, except Flux's text_encoder_2 |
| Layout.EncoderDirName | utils.py:78-83 | "text_encoder" exactly without an id; "text_encoder_" followed by the decimal id with one |
| Layout.SdxlEncoderIds | utils.py:20-21 | id 2 names text_encoder_2 but id 1 names text_encoder_1, not text_encoder |
| Quarantine.CorruptedName | diffusers_unet_loader.py:22 | the folder name with ".corrupted" appended |
| Quarantine.HandleCorrupted | diffusers_unet_loader.py:20-31 | the rename succeeds iff the folder exists, its parent is a writable directory and the target is free; otherwise FileNotFoundError, PermissionError or FileExistsError. On success: no key of the old subtree remains; every old key reappears under the new name with its node; the parent stays a directory with the same mode, its listing relabelled; every other key keeps its node; no key appears that is not the parent, an old key outside the subtree, or the image of an old subtree key |
| Quarantine.Moved | diffusers_unet_loader.py:24 | the node map after the move: a key is present iff it is the parent, an old key outside the subtree, or the image of a subtree key; an image carries the moved node, the parent its relabelled listing, everything else its own node |
| Quarantine.MovedFrame | diffusers_unet_loader.py:24 | after the move no old subtree key remains, every subtree key has its image with the same node, and keys outside both subtrees are unchanged |
| Quarantine.HandleCorruptedKeepsConsistent | diffusers_unet_loader.py:20-31 | when the folder exists, its parent is a writable directory and the `.corrupted` name is free, the rename succeeds, and in a consistent snapshot it leaves the snapshot consistent: every name any directory lists, the relabelled parent's included, still exists |
| Quarantine.OnLoadFailure | sd15_unet_loader.py:51-60 | a policy that does not quarantine leaves the snapshot alone and raises the load error (or a fresh PermissionError naming the weights); one that does renames and re-raises the load error, or raises the rename's error with nothing moved |
| Quarantine.PoliciesAreComplementary | sd15_combined_loader.py:52-57 | on every error kind exactly one of the standalone SD1.5 policy and the combined SD1.5 policy quarantines |
| Host.VaeLoad | diffusers_vae_loader.py:65-66 | the state dict is always loaded first; VAE construction is attempted iff it loaded, and only from that state dict; success is the constructor's result; the error is the loader's or the constructor's |
| Host.ClipLoad | clip_loader.py:42-43 | `comfy.sd.load_clip` is called exactly once, with the checkpoint paths, embedding directory and CLIP type given, and the node receives its result |
| FileLoaders.CheckPermissions | utils.py:113-121 | passes iff the file exists with read and write access; PermissionError naming it otherwise |
| FileLoaders.LoadCheckedSafetensors | utils.py:104-111 | the safetensors reader is called iff the file passes the permission check; otherwise PermissionError naming it and no read |
| FileLoaders.LoadJson | utils.py:95-102 | a missing path raises FileNotFoundError, an unreadable one PermissionError, a directory IsADirectoryError; only an opened file reaches the JSON reader |
| FileLoaders.LoadModelFromPath | utils.py:32-46 | after the permission check, the safetensors reader is used iff the path ends ".safetensors", the JSON reader otherwise; nothing is read from a denied file |
| FileLoaders.LoadVaeFromPath | utils.py:48-60 | reads only `<p>/vae/diffusion_pytorch_model.safetensors`; reads it iff it passes the permission check and returns what `load_safetensors` gave; otherwise raises PermissionError naming it and reads nothing |
| FileLoaders.LoadClipFromPath | utils.py:62-74 | reads only `<p>/clip/diffusion_pytorch_model.safetensors`; reads it iff it passes the permission check and returns what `load_safetensors` gave; otherwise raises PermissionError naming it and reads nothing |
| FileLoaders.LoadTextEncoderFromPath | utils.py:76-93 | reads only the text-encoder file for the id; reads it iff it passes the permission check and returns what `load_safetensors` gave; otherwise raises PermissionError naming it and reads nothing |
| FileLoaders.Optionally | utils.py:9-10 | no flag means `None` and no call; with the flag the load's result and calls |
| FileLoaders.LoadDiffusersModel | utils.py:6-14 | succeeds iff each requested component loads; vae is present iff output_vae and clip iff output_clip; the first failure is re-raised; every read was permission-checked |
| FileLoaders.ModelAndVae | utils.py:8-9 | the model is loaded first and the VAE iff output_vae; success iff every requested load succeeds; a model failure is raised before a VAE failure; only the model path and the VAE file are read, all permission-checked |
| FileLoaders.SdxlEncoders | utils.py:20-21 | id 1 is loaded iff output_clip and id 2 always; success iff both requested loads succeed; the first failure is raised; only those two files are read |
| FileLoaders.LoadDiffusersSdxlModel | utils.py:16-30 | succeeds iff the model, the VAE when output_vae, the id-1 encoder when output_clip, and the id-2 encoder whatever output_clip says all load; the first failure in that order is raised; only those files are read, each after its permission check |
| FileLoaders.DirectoryIsNeverLoaded | utils.py:32-39 | a directory whose name does not end ".safetensors" never loads as a model |
| FileLoaders.SdxlClipNeedsTextEncoder1 | utils.py:20-21 | with output_clip, a folder without text_encoder_1 fails to load |
| CheckpointNodes.ChoicesOver | loader.py:8-13 | a model path is offered iff some existing search path lists it in the unpruned walk |
| CheckpointNodes.ChoicesHere | loader.py:10-13 | one search path offers exactly the relative paths its unpruned walk lists, and nothing when it does not exist |
| CheckpointNodes.CheckpointChoices | loader.py:7-15 | the offered paths are exactly the unpruned walk below models/diffusers |
| CheckpointNodes.CheckpointPath | loader.py:21-27 | the joined path when models/diffusers and the join exist, the given path unchanged otherwise |
| CheckpointNodes.LoadCheckpoint | loader.py:21-29 | the utility loader on the resolved path with both output flags forwarded unchanged |
| CheckpointNodes.LoadSdxlCheckpoint | loader.py:48-56 | the SDXL utility loader on the resolved path with both output flags forwarded unchanged |
| CheckpointNodes.ChoicesNeverLoad | loader.py:21-29 | a directory the node offers, whose name does not end ".safetensors", never loads through either node |
| UnetNodes.LoadUnetUnder | diffusers_unet_loader.py:67-77 | exactly one load_unet call; success leaves the snapshot alone; failure follows the node's policy |
| UnetNodes.LoadFromUnetFolder | sd15_unet_loader.py:43-60 | nothing is loaded or renamed unless the lookup in `<parent>/unet` succeeds and, when checked, the file exists |
| UnetNodes.DiffusersUnetLoad | diffusers_unet_loader.py:48-77 | classification errors raise before any lookup; both families use the unet folder; the ValueError branch is never taken |
| UnetNodes.DiffusersUnetQuarantinesEveryFailure | diffusers_unet_loader.py:67-77 | every failed load renames unet to unet.corrupted and re-raises the load error, or raises the rename's error with nothing moved |
| UnetNodes.Rewrap | unet_loader.py:41-51 | PermissionError and FileNotFoundError are raised afresh naming the weights file; any other error passes unchanged |
| UnetNodes.UnetLoaderLoad | unet_loader.py:25-51 | transformer for SD3, unet otherwise; a missing folder raises FileNotFoundError before the lookup; the loader's error is re-wrapped; the snapshot never changes |
| UnetNodes.MissingFolderSkipsLookup | unet_loader.py:35-38 | with the folder missing the result does not depend on `find_model_file` |
| UnetNodes.AuraFlowWithoutUnetFails | unet_loader.py:28-36 | an AuraFlow folder with a transformer but no unet always fails with FileNotFoundError and calls nothing |
| UnetNodes.FamilyUnetLoad | sd15_unet_loader.py:43-60 | the first ".safetensors" file of `<family>/<sub>/unet`, checked to exist, loaded with the quarantine-unless-permission policy; never a ".bin" file |
| UnetNodes.FamilyUnetFailurePolicy | sdxl_unet_loader.py:51-60 | a PermissionError is raised afresh naming the weights with nothing moved; any other error renames the folder and re-raises, or raises the rename's error |
| ClipNodes.FindAll | clip_loader.py:70-92 | one lookup per directory in order, all or the first failure |
| ClipNodes.CacheAll | clip_loader.py:36-37 | the cache check on each path in order, stopping at the first that raises |
| ClipNodes.TextEncoderPaths | clip_loader.py:66-93 | one file per encoder directory in order; for Flux the second entry is the existing combined file, or what the combiner returns, and the combiner runs only when that file is missing |
| ClipNodes.TextEncoderPathsByFamily | clip_loader.py:70-92 | SDXL gives [text_encoder, text_encoder_2] files, SD3 adds text_encoder_3, SD15, SD21 and AuraFlow give the text_encoder file alone |
| ClipNodes.ClipLoaderLoad | clip_loader.py:26-51 | four-way classification, paths, cache checks, then one load_clip with `<sub>/embeddings` and the mapped type; a CLIP without tokenize raises AttributeError |
| ClipNodes.ClipLoaderChecksCacheFirst | clip_loader.py:34-46 | every checkpoint handed to load_clip went through the 'clip' cache check earlier |
| ClipNodes.ClipLoaderTrace | clip_loader.py:28-46 | nothing is called before the four-way classification succeeds; then come the 'clip' cache checks and, only when all pass, exactly one load_clip with those paths and `<sub>/embeddings` |
| ClipNodes.ClipLoaderNeverCombines | clip_loader.py:76-81 | the shard combiner is never called from this node, since the four-way rule never yields Flux |
| ClipNodes.FourWayPathsCombineNothing | clip_loader.py:67-83 | for any type the four-way rule yields, finding the text-encoder paths calls nothing, since it never combines shards |
| ClipNodes.DiffusersClipLoad | diffusers_clip_loader.py:46-87 | a missing base raises FileNotFoundError naming it; a failed classification raises FileNotFoundError naming the model folder; a failed lookup raises its error; all three call nothing. Otherwise exactly one load_clip call: the text_encoder file first, the text_encoder_2 file second exactly for SDXL, `<sub>/embeddings`, and STABLE_CASCADE iff "stable_cascade". Its result is returned, or AttributeError when the CLIP lacks tokenize |
| ClipNodes.Sd15ClipLoad | sd15_clip_loader.py:28-50 | one checkpoint `<SD15>/<sub>/text_encoder/<found>` checked to exist, with `<SD15>/<sub>/embeddings` and the two-way type |
| ClipNodes.Sd15ClipExistenceCheckRedundant | sd15_clip_loader.py:40-46 | on a consistent snapshot the node reaches the loader exactly when the lookup succeeds |
| ClipNodes.SdxlClipLoad | sdxl_clip_loader.py:26-51 | [text_encoder file, text_encoder_2 file] in order, both ".safetensors"; if either is missing FileNotFoundError naming the model folder and no load; the default CLIP type |
| VaeNodes.LoadFromVaeFolder | diffusers_vae_loader.py:55-67 | nothing is loaded unless the lookup succeeds and, when checked, the file exists; the loaded file is the one found |
| VaeNodes.DiffusersVaeLoad | diffusers_vae_loader.py:49-67 | a missing base or a failed classification raises before any lookup; then `<sub>/vae/<found>` whatever the family |
| VaeNodes.VaeWithoutTextEncoderFails | diffusers_vae_loader.py:49-79 | a folder with no text_encoder fails with FileNotFoundError and calls nothing, however complete its vae |
| VaeNodes.DiffusersVaeIgnoresFamily | diffusers_vae_loader.py:53-58 | snapshots that agree on the vae folder give the same load whichever family they classify as |
| VaeNodes.FamilyVaeLoad | sdxl_vae_loader.py:40-54 | a missing family base raises FileNotFoundError naming it; otherwise the first accepted file of `<family>/<sub>/vae`, checked, loaded; the base is under the node's own root, which for the Old/ SD1.5 node is the plugin's parent |
| VaeNodes.FamilyVaeLoadsFoundFile | Old/sd15_vae_loader.py:40-54 | on a consistent snapshot the node loads exactly when the lookup succeeds, and loads the found file |
| CombinedNodes.Sd15CombinedClip | sd15_combined_loader.py:29-43 | the re-joined ".safetensors" text_encoder file is the found file; it is checked and loaded alone with `<SD15>/<sub>/embeddings` |
| CombinedNodes.Sd15CombinedVae | sd15_combined_loader.py:59-73 | equal to the standalone family VAE load restricted to ".safetensors": the re-join changes nothing |
| CombinedNodes.Sd15CombinedLoad | sd15_combined_loader.py:23-27 | CLIP, then UNET, then VAE, each stopping the node on failure; the result is (clip, unet, vae) |
| CombinedNodes.Sd15CombinedOrder | sd15_combined_loader.py:23-27 | a complete load makes exactly the CLIP, UNET and two VAE calls in that order and returns their results |
| CombinedNodes.Sd15CombinedOkParts | sd15_combined_loader.py:23-27 | a successful load is the CLIP, UNET and VAE steps all succeeding on the unchanged snapshot, returned as (clip, unet, vae) with their calls in that order |
| CombinedNodes.Sd15ClipStepCalls | sd15_combined_loader.py:39-43 | a successful CLIP step made exactly one load_clip call and returns what it gave |
| CombinedNodes.UnetFolderOkCall | sd15_combined_loader.py:45-54 | a successful UNET step leaves the snapshot as it was, made exactly one load_unet call and returns what it gave |
| CombinedNodes.Sd15VaeStepCalls | sd15_combined_loader.py:68-73 | a successful VAE step made one load_torch_file call then one VAE construction, whose result it returns |
| CombinedNodes.UnetStepRenamesOnlyOnPermission | sd15_combined_loader.py:45-57 | the combined node's UNET step changes the snapshot only through one load that raised PermissionError, and the unet folder is then gone |
| CombinedNodes.Sd15CombinedRenamesOnlyOnPermission | sd15_combined_loader.py:45-57 | the snapshot changes only when the last call was a UNET load that raised PermissionError, and then unet is gone |
| CombinedNodes.Sd15CombinedChangedParts | sd15_combined_loader.py:23-27 | when the snapshot changed, the CLIP step succeeded and the UNET step failed and made the change; the result is that step's error, snapshot and calls after the CLIP calls |
| CombinedNodes.SdxlCombinedClip | sdxl_combined_loader.py:72-81 | the joined text_encoder and text_encoder_2 files, in that order, with the default CLIP type |
| CombinedNodes.SdxlCombinedLoad | sdxl_combined_loader.py:39-47 | a missing base raises first; then VAE, UNET, CLIP, none existence-checked, with the UNET quarantined unless PermissionError |
| CombinedNodes.SdxlCombinedOrder | sdxl_combined_loader.py:39-47 | a complete load calls VAE, UNET, CLIP in that order and returns the UNET, CLIP and VAE handles |
| CombinedNodes.Sd15UnetPoliciesDiffer | sd15_combined_loader.py:52-57 | when the folder exists, its parent is writable and the `.corrupted` name is free, exactly one of the standalone and the combined SD1.5 UNET paths moves the folder on a given load error |

## Left out

- Tensor and model loading. `comfy.sd.load_unet`, `load_clip`, `VAE`,
  `comfy.utils.load_torch_file`, `safe_open` and `json.load` are opaque
  parameters returning a handle or an error.
- `DiffusersUtils` (`get_base_path`, `get_model_directories`,
  `find_model_file`, `combine_safetensor_files`, `check_and_clear_cache`) is
  not part of this model. It is a parameter (`Host.Utils`). Shard merging,
  the file it writes, and cache invalidation are therefore not modelled.
  The choices of unet_loader.py and clip_loader.py, which come from it, are
  left out too.
- vae_loader.py: its logic is entirely in `DiffusersUtils`.
- combined_diffusers_loader.py: it calls `load_model` with more arguments
  than the callees accept, so it fails before any of its own logic runs.
- loader_factory.py: it constructs node classes with an argument none of
  them accept.
- `__init__.py`, node registration, RETURN_TYPES/CATEGORY metadata and the
  fixed option lists of INPUT_TYPES: host registration only.
- test.py and test2.py: manual scripts.
- Printing and logging.
- `load_diffusers_sdxl_model`'s `embedding_directory` parameter: the code
  does nothing with it.
- Real OS behaviour:
  - symbolic links (`followlinks=True` in loader.py);
  - `realpath` as distinct from `abspath`, and `..` resolution (paths are
    normalised name sequences);
  - `os.access` beyond the read and write bits;
  - the exact `relpath` string beyond "." for the base.
- VaeNodes.FamilyVaeLoad: the install a node runs under is a parameter, not
  derived from where the file sits. The Old/ SD1.5 VAE node's different root
  is stated separately, by `Layout.InstallOf` and
  `Layout.OldNodeRootIsPluginParent`.
- Quarantine.HandleCorrupted: an existing target is FileExistsError, as
  `os.rename` raises on Windows. On POSIX an empty target directory would
  be replaced instead.
- Quarantine.HandleCorrupted: after a rename, the parent's listing keeps the
  renamed entry in the old entry's place. Real listing order after a rename
  is unspecified.
- ClipNodes.ClipLoaderLoad: the AttributeError and every other error records
  only its kind and the folder involved, not the message text.
- ClipNodes.TextEncoderPaths: the file the shard combiner writes is not
  added to the snapshot.

=== FILE: checkpoint_nodes.dfy ===
/** The two checkpoint nodes of loader.py: an unpruned discovery walk over
    the "diffusers" folder paths for the choices, and first-existing
    search-path resolution before the utility loaders run. */
module CheckpointNodes {
  import opened Paths
  import opened Outcomes
  import opened Fs
  import opened Discovery
  import opened Layout
  import opened FileLoaders
  import opened Host

  /** The loop of INPUT_TYPES over `searchPaths`: every existing one is
      walked without pruning, and every directory holding the manifest is
      offered, relative to its search path. */
  function ChoicesOver(fs: Snapshot, searchPaths: seq<Path>): (r: seq<Path>)
    ensures forall q :: q in r <==>
      !q.absolute && exists i :: 0 <= i < |searchPaths| && Listed(fs, Resolve(fs, searchPaths[i]), q.parts, {})
  {
    if searchPaths == [] then []
    else
      var sp := searchPaths[0];
      var here := if Exists(fs, sp) then AsRelative(ModelDirectories(fs, sp, {})) else [];
      var rest := ChoicesOver(fs, searchPaths[1..]);
      forall q ensures q in here + rest <==>
        !q.absolute && exists i :: 0 <= i < |searchPaths| && Listed(fs, Resolve(fs, searchPaths[i]), q.parts, {})
      {
        ChoicesHere(fs, sp, q);
        ChoicesStep(fs, searchPaths, q, q in here, q in rest);
      }
      here + rest
  }

  /** The choices one search path contributes: what an unpruned walk of it
      lists, and nothing when it does not exist. */
  lemma ChoicesHere(fs: Snapshot, sp: Path, q: Path)
    ensures var here := if Exists(fs, sp) then AsRelative(ModelDirectories(fs, sp, {})) else [];
      q in here <==> !q.absolute && Listed(fs, Resolve(fs, sp), q.parts, {})
  {
    UnprunedWalkExact(fs, sp, q.parts);
    if !Exists(fs, sp) {
      assert !Reaches(fs, Resolve(fs, sp), q.parts, {});
    }
  }

  /** Offered by some search path iff offered by the first or by one of the
      rest. */
  lemma ChoicesStep(fs: Snapshot, searchPaths: seq<Path>, q: Path, inHere: bool, inRest: bool)
    requires searchPaths != []
    requires inHere <==> !q.absolute && Listed(fs, Resolve(fs, searchPaths[0]), q.parts, {})
    requires inRest <==> !q.absolute && exists i :: 0 <= i < |searchPaths[1..]| && Listed(fs, Resolve(fs, searchPaths[1..][i]), q.parts, {})
    ensures inHere || inRest <==>
      !q.absolute && exists i :: 0 <= i < |searchPaths| && Listed(fs, Resolve(fs, searchPaths[i]), q.parts, {})
  {
    if !q.absolute && exists i :: 0 <= i < |searchPaths| && Listed(fs, Resolve(fs, searchPaths[i]), q.parts, {}) {
      var i :| 0 <= i < |searchPaths| && Listed(fs, Resolve(fs, searchPaths[i]), q.parts, {});
      if i > 0 {
        assert searchPaths[1..][i - 1] == searchPaths[i];
      }
    }
    if inRest {
      var i :| 0 <= i < |searchPaths[1..]| && Listed(fs, Resolve(fs, searchPaths[1..][i]), q.parts, {});
      assert searchPaths[1..][i] == searchPaths[i + 1];
    }
  }

  /** INPUT_TYPES of `DiffusersLoader` and `SDXLDiffusersLoader`: the
      directories below `<root>/models/diffusers` holding the manifest. */
  function CheckpointChoices(fs: Snapshot, inst: Install): (r: seq<Path>)
    ensures forall q :: q in r <==> !q.absolute && Listed(fs, Resolve(fs, DiffusersDir(inst)), q.parts, {})
  {
    var sps := FolderPaths(inst, "diffusers");
    assert sps == [DiffusersDir(inst)];
    ChoicesOver(fs, sps)
  }

  /** The path `load_checkpoint` hands to the utility loader: `modelPath`
      joined onto `<root>/models/diffusers` when that exists and the join
      exists, `modelPath` unchanged otherwise. */
  function CheckpointPath(fs: Snapshot, inst: Install, modelPath: Path): (r: Path)
    ensures r == if Hit(fs, DiffusersDir(inst), modelPath) then Join(DiffusersDir(inst), modelPath) else modelPath
  {
    var sps := FolderPaths(inst, "diffusers");
    assert sps == [DiffusersDir(inst)];
    ResolveModelPath(fs, sps, modelPath)
  }

  /** `DiffusersLoader.load_checkpoint`: the output flags are forwarded unchanged. */
  function LoadCheckpoint(rd: Readers, fs: Snapshot, inst: Install, modelPath: Path, outputVae: bool, outputClip: bool): (r: Traced<Loaded>)
    ensures var d := DiffusersDir(inst);
      r == LoadDiffusersModel(rd, fs, if Hit(fs, d, modelPath) then Join(d, modelPath) else modelPath, outputVae, outputClip)
  {
    LoadDiffusersModel(rd, fs, CheckpointPath(fs, inst, modelPath), outputVae, outputClip)
  }

  /** `SDXLDiffusersLoader.load_checkpoint`: the same resolution, then the
      SDXL utility loader and its four results. */
  function LoadSdxlCheckpoint(rd: Readers, fs: Snapshot, inst: Install, modelPath: Path, outputVae: bool, outputClip: bool): (r: Traced<LoadedSdxl>)
    ensures var d := DiffusersDir(inst);
      r == LoadDiffusersSdxlModel(rd, fs, if Hit(fs, d, modelPath) then Join(d, modelPath) else modelPath, outputVae, outputClip)
  {
    LoadDiffusersSdxlModel(rd, fs, CheckpointPath(fs, inst, modelPath), outputVae, outputClip)
  }

  /** Every choice the two nodes offer names a directory, and the utility
      loaders read a model path as a file: loading a choice always fails
      (unless its name ends in ".safetensors"), whatever the output flags.
      The first precondition is membership in `CheckpointChoices`, as its
      contract characterises it. */
  lemma ChoicesNeverLoad(rd: Readers, fs: Snapshot, inst: Install, q: Path, outputVae: bool, outputClip: bool)
    requires !q.absolute && Listed(fs, Resolve(fs, DiffusersDir(inst)), q.parts, {})
    requires !Join(DiffusersDir(inst), q).EndsWith(".safetensors")
    ensures LoadCheckpoint(rd, fs, inst, q, outputVae, outputClip).result.Err?
    ensures LoadSdxlCheckpoint(rd, fs, inst, q, outputVae, outputClip).result.Err?
  {
    var d := DiffusersDir(inst);
    var top := Resolve(fs, d);
    assert Listed(fs, top, q.parts, {});
    ReachesReadableDir(fs, top, q.parts, {});
    assert Resolve(fs, Join(d, q)) == top + q.parts;
    assert Hit(fs, d, q);
    DirectoryIsNeverLoaded(rd, fs, Join(d, q), outputVae, outputClip);
  }
}

=== FILE: clip_nodes.dfy ===
/** The CLIP nodes: clip_loader.py, diffusers_clip_loader.py,
    sd15_clip_loader.py and sdxl_clip_loader.py. Each assembles a list of
    text-encoder checkpoint paths, in order, and hands it with an embeddings
    directory and a CLIP type to `comfy.sd.load_clip`. */
module ClipNodes {
  import opened Paths
  import opened Outcomes
  import opened Fs
  import opened Families
  import opened Weights
  import opened Discovery
  import opened Layout
  import opened ClipTypes
  import opened Host

  /** `find(d)` for each directory in turn; the first failure is raised. */
  function FindAll(find: Path -> Result<Path>, dirs: seq<Path>): (r: Result<seq<Path>>)
    ensures r.Ok? <==> forall i :: 0 <= i < |dirs| ==> find(dirs[i]).Ok?
    ensures r.Ok? ==> |r.value| == |dirs| && forall i :: 0 <= i < |dirs| ==> r.value[i] == find(dirs[i]).value
    ensures r.Err? ==> exists i :: 0 <= i < |dirs| && find(dirs[i]).Err? && r == Err(find(dirs[i]).error)
                                   && forall j :: 0 <= j < i ==> find(dirs[j]).Ok?
  {
    if dirs == [] then Ok([])
    else
      match find(dirs[0])
      case Err(e) => Err(e)
      case Ok(p) =>
        var rest := FindAll(find, dirs[1..]);
        if rest.Err? then
          var i :| 0 <= i < |dirs[1..]| && find(dirs[1..][i]).Err? && rest == Err(find(dirs[1..][i]).error)
                   && forall j :: 0 <= j < i ==> find(dirs[1..][j]).Ok?;
          assert forall j :: 0 <= j < i + 1 ==> find(dirs[j]).Ok? by {
            forall j | 0 <= j < i + 1 ensures find(dirs[j]).Ok? {
              if j > 0 { assert dirs[j] == dirs[1..][j - 1]; }
            }
          }
          Err(rest.error)
        else
          assert forall i :: 1 <= i < |dirs| ==> dirs[i] == dirs[1..][i - 1];
          Ok([p] + rest.value)
  }

  /** `check_and_clear_cache(kind, path)` for each path in turn, stopping at
      the first that raises. */
  function CacheAll(cacheCheck: (string, Path) -> Result<()>, kind: string, paths: seq<Path>): (r: Traced<()>)
    ensures |r.calls| <= |paths| && forall i :: 0 <= i < |r.calls| ==> r.calls[i] == CacheCheck(kind, paths[i])
    ensures r.result.Ok? <==> forall i :: 0 <= i < |paths| ==> cacheCheck(kind, paths[i]).Ok?
    ensures r.result.Ok? ==> |r.calls| == |paths|
    ensures r.result.Err? ==> |r.calls| >= 1 && cacheCheck(kind, paths[|r.calls| - 1]).Err?
                              && r.result == Err(cacheCheck(kind, paths[|r.calls| - 1]).error)
  {
    if paths == [] then Traced(Ok(()), [])
    else
      match cacheCheck(kind, paths[0])
      case Err(e) => Traced(Err(e), [CacheCheck(kind, paths[0])])
      case Ok(_) =>
        var rest := CacheAll(cacheCheck, kind, paths[1..]);
        assert forall i :: 1 <= i < |paths| ==> paths[i] == paths[1..][i - 1];
        Traced(rest.result, [CacheCheck(kind, paths[0])] + rest.calls)
  }

  /** The text-encoder directories of `t` under `subDir`, in order. */
  function EncoderPaths(subDir: Path, t: ModelType): (r: seq<Path>)
    ensures |r| == |EncoderDirs(t)| && forall i :: 0 <= i < |r| ==> r[i] == subDir.Child(EncoderDirs(t)[i])
  {
    seq(|EncoderDirs(t)|, i requires 0 <= i < |EncoderDirs(t)| => subDir.Child(EncoderDirs(t)[i]))
  }

  /** `<subDir>/text_encoder_2/combined_text_encoder.safetensors` */
  function CombinedFile(subDir: Path): Path {
    subDir.Child(TextEncoder2).Child(CombinedTextEncoder)
  }

  /** `get_text_encoder_paths(sub_dir_path, model_type)` of clip_loader.py:
      one file per encoder directory of the family, in order; for Flux the
      second entry is the merged shard file, built by `combine` only when it
      is not already there. */
  function TextEncoderPaths(fs: Snapshot, u: Utils, subDir: Path, t: ModelType): (r: Traced<seq<Path>>)
    ensures t != ModelType.Flux ==> r == Traced(FindAll(u.find, EncoderPaths(subDir, t)), [])
    ensures r.result.Ok? ==> |r.result.value| == |EncoderDirs(t)|
                             && u.find(subDir.Child(TextEncoder)).Ok?
                             && r.result.value[0] == u.find(subDir.Child(TextEncoder)).value
    ensures t == ModelType.Flux && r.result.Ok? && Exists(fs, CombinedFile(subDir)) ==>
      r.result.value[1] == CombinedFile(subDir)
    ensures t == ModelType.Flux && r.result.Ok? && !Exists(fs, CombinedFile(subDir)) ==>
      var combined := u.combine(subDir.Child(TextEncoder2), subDir, 2);
      combined.Ok? && r.result.value[1] == combined.value
    ensures r.calls != [] <==> t == ModelType.Flux && u.find(subDir.Child(TextEncoder)).Ok? && !Exists(fs, CombinedFile(subDir))
    ensures r.calls != [] ==> r.calls == [CombineShards(subDir.Child(TextEncoder2), subDir, 2)]
    ensures t == ModelType.Flux && u.find(subDir.Child(TextEncoder)).Err? ==> r.result == Err(u.find(subDir.Child(TextEncoder)).error)
  {
    if t != ModelType.Flux then Traced(FindAll(u.find, EncoderPaths(subDir, t)), [])
    else
      match u.find(subDir.Child(TextEncoder))
      case Err(e) => Traced(Err(e), [])
      case Ok(first) =>
        if Exists(fs, CombinedFile(subDir)) then Traced(Ok([first, CombinedFile(subDir)]), [])
        else
          var call := CombineShards(subDir.Child(TextEncoder2), subDir, 2);
          match u.combine(subDir.Child(TextEncoder2), subDir, 2)
          case Err(e) => Traced(Err(e), [call])
          case Ok(second) => Traced(Ok([first, second]), [call])
  }

  /** The lists family by family: SDXL reads text_encoder then
      text_encoder_2, SD3 adds text_encoder_3, and SD1.5, SD2.1 and AuraFlow
      read text_encoder alone. */
  lemma TextEncoderPathsByFamily(fs: Snapshot, u: Utils, subDir: Path, t: ModelType)
    requires t != ModelType.Flux
    requires TextEncoderPaths(fs, u, subDir, t).result.Ok?
    ensures var ps := TextEncoderPaths(fs, u, subDir, t).result.value;
      var f1, f2, f3 := u.find(subDir.Child(TextEncoder)), u.find(subDir.Child(TextEncoder2)), u.find(subDir.Child(TextEncoder3));
      && (t == SDXL ==> f1.Ok? && f2.Ok? && ps == [f1.value, f2.value])
      && (t == ModelType.SD3 ==> f1.Ok? && f2.Ok? && f3.Ok? && ps == [f1.value, f2.value, f3.value])
      && (t in {SD15, SD21, AuraFlow} ==> f1.Ok? && ps == [f1.value])
  {
    var ps := TextEncoderPaths(fs, u, subDir, t).result.value;
    var dirs := EncoderPaths(subDir, t);
    assert forall i :: 0 <= i < |ps| ==> ps[i] == u.find(dirs[i]).value;
  }

  /** `DiffusersClipLoader.load_model` of clip_loader.py: classify with the
      four-way rule, collect the encoder files, pass each through the 'clip'
      cache check, load with the mapped CLIP type and the embeddings folder
      of the model, and insist on a `tokenize` attribute. */
  function ClipLoaderLoad(comfy: Comfy, fs: Snapshot, u: Utils, sub: Path, clipType: string): (r: Traced<Handle>)
    ensures u.basePath.Err? ==> r == Traced(Err(u.basePath.error), [])
    ensures u.basePath.Ok? && DetectFourWay(fs, Join(u.basePath.value, sub)).Err? ==>
      r == Traced(Err(DetectFourWay(fs, Join(u.basePath.value, sub)).error), [])
    ensures u.basePath.Ok? && DetectFourWay(fs, Join(u.basePath.value, sub)).Ok? ==>
      var subDir := Join(u.basePath.value, sub);
      var paths := TextEncoderPaths(fs, u, subDir, DetectFourWay(fs, subDir).value);
      && (paths.result.Err? ==> r == Traced(Err(paths.result.error), paths.calls))
      && (paths.result.Ok? ==>
            var checks := CacheAll(u.cacheCheck, "clip", paths.result.value);
            var load := comfy.loadClip(paths.result.value, subDir.Child(EmbeddingsFolder), ClipTypeOf(clipType));
            && (checks.result.Err? ==> r == Traced(Err(checks.result.error), paths.calls + checks.calls))
            && (checks.result.Ok? ==>
                  && r.calls == paths.calls + checks.calls + [LoadClip(paths.result.value, subDir.Child(EmbeddingsFolder), ClipTypeOf(clipType))]
                  && (load.Err? ==> r.result == load)
                  && (load.Ok? && comfy.hasTokenize(load.value) ==> r.result == load)
                  && (load.Ok? && !comfy.hasTokenize(load.value) ==> r.result == Err(Error(AttributeError, subDir)))))
    ensures r.result.Ok? ==> comfy.hasTokenize(r.result.value)
  {
    match u.basePath
    case Err(e) => Traced(Err(e), [])
    case Ok(base) =>
      var subDir := Join(base, sub);
      match DetectFourWay(fs, subDir)
      case Err(e) => Traced(Err(e), [])
      case Ok(t) =>
        var ct := ClipTypeOf(clipType);
        var paths := TextEncoderPaths(fs, u, subDir, t);
        match paths.result
        case Err(e) => Traced(Err(e), paths.calls)
        case Ok(ps) =>
          var checks := CacheAll(u.cacheCheck, "clip", ps);
          if checks.result.Err? then Traced(Err(checks.result.error), paths.calls + checks.calls)
          else
            var load := ClipLoad(comfy, ps, subDir.Child(EmbeddingsFolder), ct);
            var calls := paths.calls + checks.calls + load.calls;
            match load.result
            case Err(e) => Traced(Err(e), calls)
            case Ok(clip) =>
              if comfy.hasTokenize(clip) then Traced(Ok(clip), calls)
              else Traced(Err(Error(AttributeError, subDir)), calls)
  }

  /** Every checkpoint in a `load_clip` call of the trace went through the
      'clip' cache check earlier in the trace. */
  predicate CacheCheckedBeforeLoad(calls: seq<Call>) {
    forall j :: 0 <= j < |calls| && calls[j].LoadClip? ==>
      forall p :: p in calls[j].ckptPaths ==> CacheCheck("clip", p) in calls[..j]
  }

  /** Cache checks that all passed, then a load of exactly those paths:
      every loaded path was checked before the load. */
  lemma CacheAllThenLoad(cacheCheck: (string, Path) -> Result<()>, ps: seq<Path>, load: Call)
    requires CacheAll(cacheCheck, "clip", ps).result.Ok?
    requires load.LoadClip? && load.ckptPaths == ps
    ensures CacheCheckedBeforeLoad(CacheAll(cacheCheck, "clip", ps).calls + [load])
  {
    var checks := CacheAll(cacheCheck, "clip", ps).calls;
    var calls := checks + [load];
    assert forall k :: 0 <= k < |checks| ==> calls[k] == checks[k] && checks[k].CacheCheck?;
    forall j | 0 <= j < |calls| && calls[j].LoadClip?
      ensures forall p :: p in calls[j].ckptPaths ==> CacheCheck("clip", p) in calls[..j]
    {
      assert j == |checks|;
      assert calls[..j] == checks;
      forall p | p in ps ensures CacheCheck("clip", p) in checks {
        var i :| 0 <= i < |ps| && ps[i] == p;
        assert checks[i] == CacheCheck("clip", p);
      }
    }
  }

  /** A trace of cache checks alone holds no load, so the ordering property
      holds trivially. */
  lemma CacheChecksAloneAreOrdered(cacheCheck: (string, Path) -> Result<()>, ps: seq<Path>)
    ensures CacheCheckedBeforeLoad(CacheAll(cacheCheck, "clip", ps).calls)
  {
    var checks := CacheAll(cacheCheck, "clip", ps).calls;
    assert forall j :: 0 <= j < |checks| ==> checks[j] == CacheCheck("clip", ps[j]);
  }

  /** The trace of `ClipLoaderLoad`: nothing before the classification
      succeeds, no shard combination after it, then the cache checks and, if
      they all pass, the one CLIP load. */
  lemma ClipLoaderTrace(comfy: Comfy, fs: Snapshot, u: Utils, sub: Path, clipType: string)
    ensures var r := ClipLoaderLoad(comfy, fs, u, sub, clipType);
      !(u.basePath.Ok? && DetectFourWay(fs, Join(u.basePath.value, sub)).Ok?) ==> r.calls == []
    ensures var r := ClipLoaderLoad(comfy, fs, u, sub, clipType);
      u.basePath.Ok? && DetectFourWay(fs, Join(u.basePath.value, sub)).Ok? ==>
        var subDir := Join(u.basePath.value, sub);
        var paths := TextEncoderPaths(fs, u, subDir, DetectFourWay(fs, subDir).value);
        && (paths.result.Err? ==> r.calls == [])
        && (paths.result.Ok? ==>
              var checks := CacheAll(u.cacheCheck, "clip", paths.result.value);
              && (checks.result.Err? ==> r.calls == checks.calls)
              && (checks.result.Ok? ==>
                    r.calls == checks.calls + [LoadClip(paths.result.value, subDir.Child(EmbeddingsFolder), ClipTypeOf(clipType))]))
  {
    if u.basePath.Ok? && DetectFourWay(fs, Join(u.basePath.value, sub)).Ok? {
      var subDir := Join(u.basePath.value, sub);
      var paths := TextEncoderPaths(fs, u, subDir, DetectFourWay(fs, subDir).value);
      FourWayPathsCombineNothing(fs, u, subDir);
      if paths.result.Ok? {
        var checks := CacheAll(u.cacheCheck, "clip", paths.result.value);
        assert paths.calls + checks.calls == checks.calls;
      }
    }
  }

  /** Paths for a four-way classification are looked up without combining
      shards: the four-way rule never says Flux. */
  lemma FourWayPathsCombineNothing(fs: Snapshot, u: Utils, subDir: Path)
    requires DetectFourWay(fs, subDir).Ok?
    ensures TextEncoderPaths(fs, u, subDir, DetectFourWay(fs, subDir).value).calls == []
  {
    assert DetectFourWay(fs, subDir).value != ModelType.Flux;
  }

  /** Every checkpoint handed to the CLIP loader has been through the 'clip'
      cache check first. */
  lemma ClipLoaderChecksCacheFirst(comfy: Comfy, fs: Snapshot, u: Utils, sub: Path, clipType: string)
    ensures CacheCheckedBeforeLoad(ClipLoaderLoad(comfy, fs, u, sub, clipType).calls)
  {
    ClipLoaderTrace(comfy, fs, u, sub, clipType);
    if u.basePath.Ok? && DetectFourWay(fs, Join(u.basePath.value, sub)).Ok? {
      var subDir := Join(u.basePath.value, sub);
      var paths := TextEncoderPaths(fs, u, subDir, DetectFourWay(fs, subDir).value);
      if paths.result.Ok? {
        var ps := paths.result.value;
        if CacheAll(u.cacheCheck, "clip", ps).result.Ok? {
          CacheAllThenLoad(u.cacheCheck, ps, LoadClip(ps, subDir.Child(EmbeddingsFolder), ClipTypeOf(clipType)));
        } else {
          CacheChecksAloneAreOrdered(u.cacheCheck, ps);
        }
      }
    }
  }

  /** The shard combiner never runs from the CLIP node: the four-way rule
      never classifies a directory as Flux. */
  lemma ClipLoaderNeverCombines(comfy: Comfy, fs: Snapshot, u: Utils, sub: Path, clipType: string)
    ensures forall c :: c in ClipLoaderLoad(comfy, fs, u, sub, clipType).calls ==> !c.CombineShards?
  {
    ClipLoaderTrace(comfy, fs, u, sub, clipType);
    if u.basePath.Ok? && DetectFourWay(fs, Join(u.basePath.value, sub)).Ok? {
      var subDir := Join(u.basePath.value, sub);
      var paths := TextEncoderPaths(fs, u, subDir, DetectFourWay(fs, subDir).value);
      if paths.result.Ok? {
        var checks := CacheAll(u.cacheCheck, "clip", paths.result.value);
        assert forall c :: c in checks.calls ==> c.CacheCheck?;
        NothingCombinedBy(checks.calls, LoadClip(paths.result.value, subDir.Child(EmbeddingsFolder), ClipTypeOf(clipType)));
      }
    }
  }

  /** Cache checks followed by one CLIP load combine no shards. */
  lemma NothingCombinedBy(checks: seq<Call>, load: Call)
    requires forall c :: c in checks ==> c.CacheCheck?
    requires load.LoadClip?
    ensures forall c :: c in checks + [load] ==> !c.CombineShards?
  {
  }

  /** `DiffusersClipLoader.load_clip` of diffusers_clip_loader.py: the base
      must exist; the two-way rule classifies; the text_encoder file comes
      first, followed by the text_encoder_2 file for SDXL; "stable_cascade"
      selects STABLE_CASCADE; the CLIP must have `tokenize`. */
  function DiffusersClipLoad(comfy: Comfy, fs: Snapshot, inst: Install, sub: Path, clipType: string): (r: Traced<Handle>)
    ensures !Exists(fs, DiffusersDir(inst)) ==> r == Traced(Err(Error(FileNotFoundError, DiffusersDir(inst))), [])
    ensures Exists(fs, DiffusersDir(inst)) ==>
      var subDir := Join(DiffusersDir(inst), sub);
      var te := subDir.Child(TextEncoder);
      var te2 := subDir.Child(TextEncoder2);
      var first := FindWeightName(fs, te, SafetensorsOrBin);
      var second := FindWeightName(fs, te2, SafetensorsOrBin);
      var sdxl := DetectTwoWay(fs, subDir) == Ok(SDXL);
      && (DetectTwoWay(fs, subDir).Err? ==> r == Traced(Err(Error(FileNotFoundError, subDir)), []))
      && (DetectTwoWay(fs, subDir).Ok? && first.Err? ==> r == Traced(Err(first.error), []))
      && (DetectTwoWay(fs, subDir).Ok? && first.Ok? && sdxl && second.Err? ==> r == Traced(Err(second.error), []))
      && (DetectTwoWay(fs, subDir).Ok? && first.Ok? && (sdxl ==> second.Ok?) ==>
            var ps := if sdxl then [te.Child(first.value), te2.Child(second.value)] else [te.Child(first.value)];
            var load := ClipLoad(comfy, ps, subDir.Child(EmbeddingsFolder), CascadeOrDefault(clipType));
            r == if load.result.Ok? && !comfy.hasTokenize(load.result.value)
                 then Traced(Err(Error(AttributeError, subDir)), load.calls)
                 else load)
    ensures |r.calls| <= 1
    ensures r.calls == [] ==> r.result.Err?
    ensures r.result.Ok? ==> comfy.hasTokenize(r.result.value)
    ensures forall c :: c in r.calls ==>
      var subDir := Join(DiffusersDir(inst), sub);
      var te := subDir.Child(TextEncoder);
      && c.LoadClip?
      && c.clipType == CascadeOrDefault(clipType)
      && c.embeddingDir == subDir.Child(EmbeddingsFolder)
      && 1 <= |c.ckptPaths| <= 2
      && FindWeightName(fs, te, SafetensorsOrBin).Ok?
      && c.ckptPaths[0] == te.Child(FindWeightName(fs, te, SafetensorsOrBin).value)
      && (|c.ckptPaths| == 2 <==> DetectTwoWay(fs, subDir) == Ok(SDXL))
      && (|c.ckptPaths| == 2 ==>
            FindWeightName(fs, subDir.Child(TextEncoder2), SafetensorsOrBin).Ok? &&
            c.ckptPaths[1] == subDir.Child(TextEncoder2).Child(FindWeightName(fs, subDir.Child(TextEncoder2), SafetensorsOrBin).value))
  {
    match ExistingBase(fs, DiffusersDir(inst))
    case Err(e) => Traced(Err(e), [])
    case Ok(base) =>
      var subDir := Join(base, sub);
      match DetectTwoWay(fs, subDir)
      case Err(e) => Traced(Err(e), [])
      case Ok(t) =>
        var ct := CascadeOrDefault(clipType);
        var te := subDir.Child(TextEncoder);
        match FindWeightName(fs, te, SafetensorsOrBin)
        case Err(e) => Traced(Err(e), [])
        case Ok(first) =>
          var paths :=
            if t == SDXL then
              var te2 := subDir.Child(TextEncoder2);
              match FindWeightName(fs, te2, SafetensorsOrBin)
              case Err(e) => Err(e)
              case Ok(second) => Ok([te.Child(first), te2.Child(second)])
            else Ok([te.Child(first)]);
          match paths
          case Err(e) => Traced(Err(e), [])
          case Ok(ps) =>
            var load := ClipLoad(comfy, ps, subDir.Child(EmbeddingsFolder), ct);
            match load.result
            case Err(e) => load
            case Ok(clip) =>
              if comfy.hasTokenize(clip) then load
              else Traced(Err(Error(AttributeError, subDir)), load.calls)
  }

  /** `SD15CLIPLoader.load_clip` of sd15_clip_loader.py: the first
      ".safetensors" or ".bin" file of `<SD15>/<sub>/text_encoder`, checked to
      exist, loaded alone with `<SD15>/<sub>/embeddings`. There is no
      `tokenize` check. */
  function Sd15ClipLoad(comfy: Comfy, fs: Snapshot, inst: Install, sub: Path, clipType: string): (r: Traced<Handle>)
    ensures var model := Join(FamilyDir(inst, SD15Folder), sub);
      var te := model.Child(TextEncoder);
      var found := FindWeightName(fs, te, SafetensorsOrBin);
      && (found.Err? ==> r == Traced(Err(found.error), []))
      && (found.Ok? && !Exists(fs, te.Child(found.value)) ==> r == Traced(Err(Error(FileNotFoundError, te.Child(found.value))), []))
      && (found.Ok? && Exists(fs, te.Child(found.value)) ==>
            r == ClipLoad(comfy, [te.Child(found.value)], model.Child(EmbeddingsFolder), CascadeOrDefault(clipType)))
  {
    var model := Join(FamilyDir(inst, SD15Folder), sub);
    var te := model.Child(TextEncoder);
    match FindWeightName(fs, te, SafetensorsOrBin)
    case Err(e) => Traced(Err(e), [])
    case Ok(n) =>
      if !Exists(fs, te.Child(n)) then Traced(Err(Error(FileNotFoundError, te.Child(n))), [])
      else ClipLoad(comfy, [te.Child(n)], model.Child(EmbeddingsFolder), CascadeOrDefault(clipType))
  }

  /** On a consistent snapshot the existence check of the SD1.5 CLIP node
      never fires: a name taken from the listing exists. The node reaches the
      loader exactly when the lookup succeeds. */
  lemma Sd15ClipExistenceCheckRedundant(comfy: Comfy, fs: Snapshot, inst: Install, sub: Path, clipType: string)
    requires Consistent(fs)
    ensures var te := Join(FamilyDir(inst, SD15Folder), sub).Child(TextEncoder);
      |Sd15ClipLoad(comfy, fs, inst, sub, clipType).calls| == 1 <==> FindWeightName(fs, te, SafetensorsOrBin).Ok?
  {
    var te := Join(FamilyDir(inst, SD15Folder), sub).Child(TextEncoder);
    if FindWeightName(fs, te, SafetensorsOrBin).Ok? {
      FoundWeightExists(fs, te, SafetensorsOrBin);
    }
  }

  /** `SDXLCLIPLoader.load_sdxl_clip` of sdxl_clip_loader.py: the first
      ".safetensors" file of text_encoder and of text_encoder_2, in that
      order; if either is missing the node raises naming the model folder and
      loads nothing; the CLIP type is the loader's default. */
  function SdxlClipLoad(comfy: Comfy, fs: Snapshot, inst: Install, sub: Path): (r: Traced<Handle>)
    ensures var model := Join(FamilyDir(inst, SDXLFolder), sub);
      var te1, te2 := model.Child(TextEncoder), model.Child(TextEncoder2);
      var found1, found2 := FindWeightName(fs, te1, SafetensorsOnly), FindWeightName(fs, te2, SafetensorsOnly);
      && (found1.Err? ==> r == Traced(Err(found1.error), []))
      && (found1.Ok? && found2.Err? ==> r == Traced(Err(found2.error), []))
      && (found1.Ok? && found2.Ok? ==>
            var p1, p2 := te1.Child(found1.value), te2.Child(found2.value);
            && (!(Exists(fs, p1) && Exists(fs, p2)) ==> r == Traced(Err(Error(FileNotFoundError, model)), []))
            && (Exists(fs, p1) && Exists(fs, p2) ==>
                  r == ClipLoad(comfy, [p1, p2], model.Child(EmbeddingsFolder), StableDiffusion)))
    ensures forall c :: c in r.calls ==>
      && c.LoadClip? && |c.ckptPaths| == 2
      && forall i :: 0 <= i < 2 ==> StringEndsWith(c.ckptPaths[i].parts[|c.ckptPaths[i].parts| - 1], ".safetensors")
  {
    var model := Join(FamilyDir(inst, SDXLFolder), sub);
    var te1, te2 := model.Child(TextEncoder), model.Child(TextEncoder2);
    match FindWeightName(fs, te1, SafetensorsOnly)
    case Err(e) => Traced(Err(e), [])
    case Ok(n1) =>
      match FindWeightName(fs, te2, SafetensorsOnly)
      case Err(e) => Traced(Err(e), [])
      case Ok(n2) =>
        var p1, p2 := te1.Child(n1), te2.Child(n2);
        if !(Exists(fs, p1) && Exists(fs, p2)) then Traced(Err(Error(FileNotFoundError, model)), [])
        else
          SafetensorsOnlyNeverBin(fs, te1);
          SafetensorsOnlyNeverBin(fs, te2);
          ChildrenEndWith(te1, n1, te2, n2, ".safetensors");
          ClipLoad(comfy, [p1, p2], model.Child(EmbeddingsFolder), StableDiffusion)
  }

  /** Two paths whose last names both end with `suffix`. */
  lemma ChildrenEndWith(a: Path, n1: Name, b: Path, n2: Name, suffix: string)
    requires StringEndsWith(n1, suffix) && StringEndsWith(n2, suffix)
    ensures var ps := [a.Child(n1), b.Child(n2)];
      forall i :: 0 <= i < 2 ==> StringEndsWith(ps[i].parts[|ps[i].parts| - 1], suffix)
  {
    assert a.Child(n1).parts[|a.Child(n1).parts| - 1] == n1;
    assert b.Child(n2).parts[|b.Child(n2).parts| - 1] == n2;
  }
}

=== FILE: clip_types.dfy ===
/** The CLIP type passed to the host's CLIP loader. */
module ClipTypes {

  /** The members of the host's `CLIPType` enumeration the nodes use. */
  datatype ClipType = StableDiffusion | StableCascade | SD3 | StableAudio | Flux

  /** The keys `get_clip_type_enum` knows. "sdxl" shares STABLE_DIFFUSION. */
  const ClipTypeKeys: map<string, ClipType> := map[
    "stable_diffusion" := StableDiffusion,
    "stable_cascade" := StableCascade,
    "sd3" := SD3,
    "stable_audio" := StableAudio,
    "sdxl" := StableDiffusion,
    "flux" := Flux]

  /** `DiffusersClipLoader.get_clip_type_enum` of clip_loader.py: total,
      unknown keys fall back to STABLE_DIFFUSION. */
  function ClipTypeOf(key: string): (r: ClipType)
    ensures r == StableDiffusion <==> key !in {"stable_cascade", "sd3", "stable_audio", "flux"}
    ensures r == StableCascade <==> key == "stable_cascade"
    ensures r == SD3 <==> key == "sd3"
    ensures r == StableAudio <==> key == "stable_audio"
    ensures r == Flux <==> key == "flux"
  {
    if key in ClipTypeKeys then ClipTypeKeys[key] else StableDiffusion
  }

  /** The two-way choice of the diffusers, SD1.5 and SD1.5 combined CLIP
      nodes: "stable_cascade" selects STABLE_CASCADE, anything else
      STABLE_DIFFUSION. */
  function CascadeOrDefault(key: string): (r: ClipType)
    ensures r == StableCascade <==> key == "stable_cascade"
    ensures r != StableCascade ==> r == StableDiffusion
  {
    if key == "stable_cascade" then StableCascade else StableDiffusion
  }

  /** On the two values those nodes offer, both mappings agree; beyond them
      they part ("sd3" is SD3 in one and STABLE_DIFFUSION in the other). */
  lemma ClipTypeMappingsAgreeOnOfferedKeys()
    ensures forall k :: k in {"stable_diffusion", "stable_cascade"} ==> CascadeOrDefault(k) == ClipTypeOf(k)
    ensures CascadeOrDefault("sd3") != ClipTypeOf("sd3")
  {
  }
}

=== FILE: combined_nodes.dfy ===
/** The combined nodes: sd15_combined_loader.py and sdxl_combined_loader.py.
    Each loads a CLIP, a UNET and a VAE from one model folder, in a fixed
    order, and returns the three in an order of its own. */
module CombinedNodes {
  import opened Paths
  import opened Outcomes
  import opened Fs
  import opened Families
  import opened Weights
  import opened Layout
  import opened ClipTypes
  import opened Quarantine
  import opened Host
  import opened UnetNodes
  import opened VaeNodes

  /** Loaded CLIP, UNET and VAE. */
  datatype Trio = Trio(clip: Handle, unet: Handle, vae: Handle)

  /** `CombinedDiffusersSD15Loader.load_clip`: the joined path of the first
      ".safetensors" file of `<SD15>/<sub>/text_encoder`, joined once more
      onto that folder, checked to exist, loaded alone. */
  function Sd15CombinedClip(comfy: Comfy, fs: Snapshot, inst: Install, sub: Path, clipType: string): (r: Traced<Handle>)
    ensures var model := Join(FamilyDir(inst, SD15Folder), sub);
      var te := model.Child(TextEncoder);
      var found := FindWeightName(fs, te, SafetensorsOnly);
      && (found.Err? ==> r == Traced(Err(found.error), []))
      && (found.Ok? && !Exists(fs, te.Child(found.value)) ==> r == Traced(Err(Error(FileNotFoundError, te.Child(found.value))), []))
      && (found.Ok? && Exists(fs, te.Child(found.value)) ==>
            r == ClipLoad(comfy, [te.Child(found.value)], model.Child(EmbeddingsFolder), CascadeOrDefault(clipType)))
  {
    var model := Join(FamilyDir(inst, SD15Folder), sub);
    var te := model.Child(TextEncoder);
    match FindWeightPath(fs, te, SafetensorsOnly)
    case Err(e) => Traced(Err(e), [])
    case Ok(found) =>
      var path := Join(te, found);
      JoinAbsoluteIsIdentity(te, found);
      if !Exists(fs, path) then Traced(Err(Error(FileNotFoundError, path)), [])
      else ClipLoad(comfy, [path], model.Child(EmbeddingsFolder), CascadeOrDefault(clipType))
  }

  /** `CombinedDiffusersSD15Loader.load_vae`: `get_base_path` first, then the
      joined path of the first ".safetensors" file of `<SD15>/<sub>/vae`,
      joined once more onto that folder, checked to exist, loaded. Because
      the found path is absolute the second join changes nothing, and this is
      the standalone VAE node restricted to ".safetensors". */
  function Sd15CombinedVae(comfy: Comfy, fs: Snapshot, inst: Install, sub: Path): (r: Traced<Handle>)
    ensures r == FamilyVaeLoad(comfy, fs, inst, SD15Folder, SafetensorsOnly, sub)
  {
    match ExistingBase(fs, FamilyDir(inst, SD15Folder))
    case Err(e) => Traced(Err(e), [])
    case Ok(base) =>
      var folder := Join(base, sub).Child(Vae);
      match FindWeightPath(fs, folder, SafetensorsOnly)
      case Err(e) => Traced(Err(e), [])
      case Ok(found) =>
        var path := Join(folder, found);
        JoinAbsoluteIsIdentity(folder, found);
        if !Exists(fs, path) then Traced(Err(Error(FileNotFoundError, path)), [])
        else VaeLoad(comfy, path)
  }

  /** `CombinedDiffusersSD15Loader.load_models`: CLIP, then UNET, then VAE,
      each stopping the node when it fails; the UNET folder is quarantined
      only on a PermissionError. The result is (clip, unet, vae). */
  function Sd15CombinedLoad(comfy: Comfy, fs: Snapshot, inst: Install, sub: Path, clipType: string): (r: Step<Trio>)
    ensures var clip := Sd15CombinedClip(comfy, fs, inst, sub, clipType);
      var unet := LoadFromUnetFolder(comfy, fs, QuarantineOnPermission, SafetensorsOnly, Join(FamilyDir(inst, SD15Folder), sub), true);
      var vae := Sd15CombinedVae(comfy, unet.fs, inst, sub);
      && (clip.result.Err? ==> r == Step(Err(clip.result.error), fs, clip.calls))
      && (clip.result.Ok? && unet.result.Err? ==> r == Step(Err(unet.result.error), unet.fs, clip.calls + unet.calls))
      && (clip.result.Ok? && unet.result.Ok? ==>
            && unet.fs == fs
            && r.fs == fs
            && r.calls == clip.calls + unet.calls + vae.calls
            && (vae.result.Err? ==> r.result == Err(vae.result.error))
            && (vae.result.Ok? ==> r.result == Ok(Trio(clip.result.value, unet.result.value, vae.result.value))))
  {
    var clip := Sd15CombinedClip(comfy, fs, inst, sub, clipType);
    match clip.result
    case Err(e) => Step(Err(e), fs, clip.calls)
    case Ok(c) =>
      var unet := LoadFromUnetFolder(comfy, fs, QuarantineOnPermission, SafetensorsOnly, Join(FamilyDir(inst, SD15Folder), sub), true);
      match unet.result
      case Err(e) => Step(Err(e), unet.fs, clip.calls + unet.calls)
      case Ok(u) =>
        var vae := Sd15CombinedVae(comfy, unet.fs, inst, sub);
        match vae.result
        case Err(e) => Step(Err(e), unet.fs, clip.calls + unet.calls + vae.calls)
        case Ok(v) => Step(Ok(Trio(c, u, v)), unet.fs, clip.calls + unet.calls + vae.calls)
  }

  /** A complete SD1.5 combined load calls the CLIP loader, the UNET loader,
      then the two VAE steps, and returns what those calls gave in the same
      order. */
  lemma Sd15CombinedOrder(comfy: Comfy, fs: Snapshot, inst: Install, sub: Path, clipType: string)
    requires Sd15CombinedLoad(comfy, fs, inst, sub, clipType).result.Ok?
    ensures var r := Sd15CombinedLoad(comfy, fs, inst, sub, clipType);
      && |r.calls| == 4
      && r.calls[0].LoadClip? && r.calls[1].LoadUnet? && r.calls[2].LoadTorchFile? && r.calls[3].MakeVae?
      && comfy.loadClip(r.calls[0].ckptPaths, r.calls[0].embeddingDir, r.calls[0].clipType) == Ok(r.result.value.clip)
      && comfy.loadUnet(r.calls[1].path) == Ok(r.result.value.unet)
      && comfy.makeVae(r.calls[3].sd) == Ok(r.result.value.vae)
      && r.fs == fs
  {
    var clip := Sd15CombinedClip(comfy, fs, inst, sub, clipType);
    var unet := LoadFromUnetFolder(comfy, fs, QuarantineOnPermission, SafetensorsOnly, Join(FamilyDir(inst, SD15Folder), sub), true);
    var vae := Sd15CombinedVae(comfy, fs, inst, sub);
    Sd15CombinedOkParts(comfy, fs, inst, sub, clipType);
    Sd15ClipStepCalls(comfy, fs, inst, sub, clipType);
    UnetFolderOkCall(comfy, fs, QuarantineOnPermission, SafetensorsOnly, Join(FamilyDir(inst, SD15Folder), sub), true);
    Sd15VaeStepCalls(comfy, fs, inst, sub);
    TrioCalls(clip.calls, unet.calls, vae.calls);
  }

  /** A successful SD1.5 combined load is the three successful steps, the
      VAE step run on the untouched snapshot, their calls in order. */
  lemma Sd15CombinedOkParts(comfy: Comfy, fs: Snapshot, inst: Install, sub: Path, clipType: string)
    requires Sd15CombinedLoad(comfy, fs, inst, sub, clipType).result.Ok?
    ensures var clip := Sd15CombinedClip(comfy, fs, inst, sub, clipType);
      var unet := LoadFromUnetFolder(comfy, fs, QuarantineOnPermission, SafetensorsOnly, Join(FamilyDir(inst, SD15Folder), sub), true);
      var vae := Sd15CombinedVae(comfy, fs, inst, sub);
      && clip.result.Ok? && unet.result.Ok? && vae.result.Ok?
      && Sd15CombinedLoad(comfy, fs, inst, sub, clipType)
         == Step(Ok(Trio(clip.result.value, unet.result.value, vae.result.value)), fs, clip.calls + unet.calls + vae.calls)
  {
  }

  /** A successful CLIP step of the SD1.5 combined node made one CLIP load,
      and the handle is what that load gave. */
  lemma Sd15ClipStepCalls(comfy: Comfy, fs: Snapshot, inst: Install, sub: Path, clipType: string)
    requires Sd15CombinedClip(comfy, fs, inst, sub, clipType).result.Ok?
    ensures var clip := Sd15CombinedClip(comfy, fs, inst, sub, clipType);
      && |clip.calls| == 1 && clip.calls[0].LoadClip?
      && comfy.loadClip(clip.calls[0].ckptPaths, clip.calls[0].embeddingDir, clip.calls[0].clipType) == clip.result
  {
  }

  /** A successful folder-based UNET load made one UNET load, kept the
      snapshot, and returns what that load gave. */
  lemma UnetFolderOkCall(comfy: Comfy, fs: Snapshot, policy: Policy, accept: Accept, parent: Path, checkExists: bool)
    requires LoadFromUnetFolder(comfy, fs, policy, accept, parent, checkExists).result.Ok?
    ensures var unet := LoadFromUnetFolder(comfy, fs, policy, accept, parent, checkExists);
      && unet.fs == fs && |unet.calls| == 1 && unet.calls[0].LoadUnet?
      && comfy.loadUnet(unet.calls[0].path) == unet.result
  {
    var w := FindWeightPath(fs, parent.Child(Unet), accept).value;
    assert LoadFromUnetFolder(comfy, fs, policy, accept, parent, checkExists) == LoadUnetUnder(comfy, fs, policy, parent, Unet, w);
  }

  /** Where the calls of three steps land in their concatenation. */
  lemma TrioCalls(c: seq<Call>, u: seq<Call>, v: seq<Call>)
    requires |c| == 1 && |u| == 1 && |v| == 2
    ensures var all := c + u + v;
      |all| == 4 && all[0] == c[0] && all[1] == u[0] && all[2] == v[0] && all[3] == v[1]
  {
  }

  /** A successful VAE step of the SD1.5 combined node made exactly two
      calls, a state-dict load and the VAE construction that gave it. */
  lemma Sd15VaeStepCalls(comfy: Comfy, fs: Snapshot, inst: Install, sub: Path)
    requires Sd15CombinedVae(comfy, fs, inst, sub).result.Ok?
    ensures var vae := Sd15CombinedVae(comfy, fs, inst, sub);
      && |vae.calls| == 2 && vae.calls[0].LoadTorchFile? && vae.calls[1].MakeVae?
      && comfy.makeVae(vae.calls[1].sd) == vae.result
  {
    var family := FamilyDir(inst, SD15Folder);
    var folder := Join(family, sub).Child(Vae);
    var found := FindWeightName(fs, folder, SafetensorsOnly);
    assert Exists(fs, family) && found.Ok? && Exists(fs, folder.Child(found.value));
    assert Sd15CombinedVae(comfy, fs, inst, sub) == VaeLoad(comfy, folder.Child(found.value));
  }

  /** The UNET step of the SD1.5 combined node changes the snapshot only
      through a single load that raised PermissionError, and then the unet
      folder is gone. */
  lemma UnetStepRenamesOnlyOnPermission(comfy: Comfy, fs: Snapshot, parent: Path)
    ensures var unet := LoadFromUnetFolder(comfy, fs, QuarantineOnPermission, SafetensorsOnly, parent, true);
      unet.fs != fs ==>
        && unet.result.Err?
        && |unet.calls| == 1 && unet.calls[0].LoadUnet?
        && comfy.loadUnet(unet.calls[0].path).Err?
        && comfy.loadUnet(unet.calls[0].path).error.kind == PermissionError
        && !Exists(unet.fs, parent.Child(Unet))
  {
    var unet := LoadFromUnetFolder(comfy, fs, QuarantineOnPermission, SafetensorsOnly, parent, true);
    if unet.fs != fs {
      var w := FindWeightPath(fs, parent.Child(Unet), SafetensorsOnly).value;
      assert unet == LoadUnetUnder(comfy, fs, QuarantineOnPermission, parent, Unet, w);
    }
  }

  /** The SD1.5 combined node renames the unet folder only when the UNET
      loader raised a PermissionError; every other failure leaves the
      snapshot as it was. */
  lemma Sd15CombinedRenamesOnlyOnPermission(comfy: Comfy, fs: Snapshot, inst: Install, sub: Path, clipType: string)
    ensures var r := Sd15CombinedLoad(comfy, fs, inst, sub, clipType);
      r.fs != fs ==>
        && r.result.Err?
        && |r.calls| >= 1 && r.calls[|r.calls| - 1].LoadUnet?
        && comfy.loadUnet(r.calls[|r.calls| - 1].path).Err?
        && comfy.loadUnet(r.calls[|r.calls| - 1].path).error.kind == PermissionError
        && !Exists(r.fs, Join(FamilyDir(inst, SD15Folder), sub).Child(Unet))
  {
    var clip := Sd15CombinedClip(comfy, fs, inst, sub, clipType);
    var parent := Join(FamilyDir(inst, SD15Folder), sub);
    var unet := LoadFromUnetFolder(comfy, fs, QuarantineOnPermission, SafetensorsOnly, parent, true);
    Sd15CombinedChangedParts(comfy, fs, inst, sub, clipType);
    UnetStepRenamesOnlyOnPermission(comfy, fs, parent);
    if unet.fs != fs {
      LastCall(clip.calls, unet.calls);
    }
  }

  /** A SD1.5 combined load that changed the snapshot stopped at the UNET
      step, after a successful CLIP step, with that step's error and
      snapshot. */
  lemma Sd15CombinedChangedParts(comfy: Comfy, fs: Snapshot, inst: Install, sub: Path, clipType: string)
    ensures var r := Sd15CombinedLoad(comfy, fs, inst, sub, clipType);
      var clip := Sd15CombinedClip(comfy, fs, inst, sub, clipType);
      var unet := LoadFromUnetFolder(comfy, fs, QuarantineOnPermission, SafetensorsOnly, Join(FamilyDir(inst, SD15Folder), sub), true);
      r.fs != fs ==>
        && clip.result.Ok? && unet.result.Err? && unet.fs != fs
        && r == Step(Err(unet.result.error), unet.fs, clip.calls + unet.calls)
  {
  }

  /** The last call of two steps run in turn is the second step's last. */
  lemma LastCall(c: seq<Call>, u: seq<Call>)
    requires |u| >= 1
    ensures |c + u| >= 1 && (c + u)[|c + u| - 1] == u[|u| - 1]
  {
  }

  /** `CombinedDiffusersSDXLLoader.load_clip`: the joined paths of the first
      ".safetensors" files of text_encoder and text_encoder_2, in that order,
      with the loader's default CLIP type. */
  function SdxlCombinedClip(comfy: Comfy, fs: Snapshot, subDir: Path): (r: Traced<Handle>)
    ensures var p1, p2 := FindWeightPath(fs, subDir.Child(TextEncoder), SafetensorsOnly), FindWeightPath(fs, subDir.Child(TextEncoder2), SafetensorsOnly);
      && (p1.Err? ==> r == Traced(Err(p1.error), []))
      && (p1.Ok? && p2.Err? ==> r == Traced(Err(p2.error), []))
      && (p1.Ok? && p2.Ok? ==> r == ClipLoad(comfy, [p1.value, p2.value], subDir.Child(EmbeddingsFolder), StableDiffusion))
  {
    match FindWeightPath(fs, subDir.Child(TextEncoder), SafetensorsOnly)
    case Err(e) => Traced(Err(e), [])
    case Ok(p1) =>
      match FindWeightPath(fs, subDir.Child(TextEncoder2), SafetensorsOnly)
      case Err(e) => Traced(Err(e), [])
      case Ok(p2) => ClipLoad(comfy, [p1, p2], subDir.Child(EmbeddingsFolder), StableDiffusion)
  }

  /** `CombinedDiffusersSDXLLoader.load_models`: the base must exist; VAE,
      then UNET, then CLIP, none with an existence check; the UNET folder is
      quarantined on any failure but a PermissionError. The result is
      (unet, clip, vae), carried here as a `Trio`. */
  function SdxlCombinedLoad(comfy: Comfy, fs: Snapshot, inst: Install, sub: Path): (r: Step<Trio>)
    ensures !Exists(fs, FamilyDir(inst, SDXLFolder)) ==> r == Step(Err(Error(FileNotFoundError, FamilyDir(inst, SDXLFolder))), fs, [])
    ensures Exists(fs, FamilyDir(inst, SDXLFolder)) ==>
      var subDir := Join(FamilyDir(inst, SDXLFolder), sub);
      var vae := LoadFromVaeFolder(comfy, fs, subDir.Child(Vae), SafetensorsOnly, false);
      var unet := LoadFromUnetFolder(comfy, fs, QuarantineUnlessPermission, SafetensorsOnly, subDir, false);
      var clip := SdxlCombinedClip(comfy, unet.fs, subDir);
      && (vae.result.Err? ==> r == Step(Err(vae.result.error), fs, vae.calls))
      && (vae.result.Ok? && unet.result.Err? ==> r == Step(Err(unet.result.error), unet.fs, vae.calls + unet.calls))
      && (vae.result.Ok? && unet.result.Ok? ==>
            && unet.fs == fs
            && r.fs == fs
            && r.calls == vae.calls + unet.calls + clip.calls
            && (clip.result.Err? ==> r.result == Err(clip.result.error))
            && (clip.result.Ok? ==> r.result == Ok(Trio(clip.result.value, unet.result.value, vae.result.value))))
  {
    match ExistingBase(fs, FamilyDir(inst, SDXLFolder))
    case Err(e) => Step(Err(e), fs, [])
    case Ok(base) =>
      var subDir := Join(base, sub);
      var vae := LoadFromVaeFolder(comfy, fs, subDir.Child(Vae), SafetensorsOnly, false);
      match vae.result
      case Err(e) => Step(Err(e), fs, vae.calls)
      case Ok(v) =>
        var unet := LoadFromUnetFolder(comfy, fs, QuarantineUnlessPermission, SafetensorsOnly, subDir, false);
        match unet.result
        case Err(e) => Step(Err(e), unet.fs, vae.calls + unet.calls)
        case Ok(u) =>
          var clip := SdxlCombinedClip(comfy, unet.fs, subDir);
          match clip.result
          case Err(e) => Step(Err(e), unet.fs, vae.calls + unet.calls + clip.calls)
          case Ok(c) => Step(Ok(Trio(c, u, v)), unet.fs, vae.calls + unet.calls + clip.calls)
  }

  /** A complete SDXL combined load calls the two VAE steps, the UNET loader,
      then the CLIP loader with the text_encoder and text_encoder_2 files in
      that order, and hands back what each gave. */
  lemma SdxlCombinedOrder(comfy: Comfy, fs: Snapshot, inst: Install, sub: Path)
    requires SdxlCombinedLoad(comfy, fs, inst, sub).result.Ok?
    ensures var r := SdxlCombinedLoad(comfy, fs, inst, sub);
      var subDir := Join(FamilyDir(inst, SDXLFolder), sub);
      && |r.calls| == 4
      && r.calls[0].LoadTorchFile? && r.calls[1].MakeVae? && r.calls[2].LoadUnet? && r.calls[3].LoadClip?
      && comfy.makeVae(r.calls[1].sd) == Ok(r.result.value.vae)
      && comfy.loadUnet(r.calls[2].path) == Ok(r.result.value.unet)
      && r.calls[3].ckptPaths == [FindWeightPath(fs, subDir.Child(TextEncoder), SafetensorsOnly).value,
                                  FindWeightPath(fs, subDir.Child(TextEncoder2), SafetensorsOnly).value]
      && comfy.loadClip(r.calls[3].ckptPaths, r.calls[3].embeddingDir, r.calls[3].clipType) == Ok(r.result.value.clip)
      && r.fs == fs
  {
    var subDir := Join(FamilyDir(inst, SDXLFolder), sub);
    UnetFolderOkCall(comfy, fs, QuarantineUnlessPermission, SafetensorsOnly, subDir, false);
  }

  /** The two SD1.5 UNET paths part on every loader error: the combined node
      quarantines exactly on the errors the standalone node does not. */
  lemma Sd15UnetPoliciesDiffer(comfy: Comfy, fs: Snapshot, inst: Install, sub: Path, w: Path)
    requires FindWeightPath(fs, Join(FamilyDir(inst, SD15Folder), sub).Child(Unet), SafetensorsOnly) == Ok(w)
    requires Exists(fs, w)
    requires comfy.loadUnet(w).Err?
    requires var p := Resolve(fs, Join(FamilyDir(inst, SD15Folder), sub));
      p + [Unet] in fs.nodes && IsDirKey(fs, p) && fs.nodes[p].mode.write && p + [CorruptedName(Unet)] !in fs.nodes
    ensures var parent := Join(FamilyDir(inst, SD15Folder), sub);
      var standalone := FamilyUnetLoad(comfy, fs, inst, SD15Folder, sub);
      var combined := LoadFromUnetFolder(comfy, fs, QuarantineOnPermission, SafetensorsOnly, parent, true);
      (standalone.fs == fs) != (combined.fs == fs)
  {
    var parent := Join(FamilyDir(inst, SD15Folder), sub);
    PoliciesAreComplementary(comfy.loadUnet(w).error.kind);
    var moved := HandleCorrupted(fs, parent, Unet).value;
    assert Exists(fs, parent.Child(Unet)) && !Exists(moved, parent.Child(Unet));
  }
}

=== FILE: discovery.dfy ===
/** Model-directory discovery (`os.walk` with pruning) and the immediate
    sub-directory listings the SD1.5/SDXL nodes offer.

    `os.walk(top)` lists `top`, yields it, then walks each entry that is a
    directory, in listing order, after the caller has removed the pruned
    names from `dirs`. A directory it cannot list yields nothing. The walks
    of diffusers_unet_loader.py, diffusers_clip_loader.py and
    diffusers_vae_loader.py prune `ComponentDirs`; the one in loader.py
    prunes nothing. */
module Discovery {
  import opened Paths
  import opened Outcomes
  import opened Fs
  import opened Layout

  const Manifest: Name := "model_index.json"

  /** The sub-directories the diffusers walks never enter. */
  const ComponentDirs: set<Name> := {"vae", "unet", "text_encoder", "text_encoder_2"}

  predicate IsReadableDir(fs: Snapshot, k: seq<Name>) {
    IsDirKey(fs, k) && fs.nodes[k].mode.read
  }

  /** `"model_index.json" in files`: the listing names it and it is not a directory. */
  predicate HasManifest(fs: Snapshot, k: seq<Name>) {
    IsReadableDir(fs, k) && Manifest in fs.nodes[k].listing && !IsDirKey(fs, k + [Manifest])
  }

  /** The walk from `top` reaches the directory `rel` components below it:
      each step is a listed, unpruned, readable directory. */
  ghost predicate Reaches(fs: Snapshot, top: seq<Name>, rel: seq<Name>, prune: set<Name>)
    decreases |rel|
  {
    IsReadableDir(fs, top)
    && (rel == [] ||
        (rel[0] in fs.nodes[top].listing && rel[0] !in prune
         && Reaches(fs, top + [rel[0]], rel[1..], prune)))
  }

  /** The walk from `top` reports the directory `rel` below it. */
  ghost predicate Listed(fs: Snapshot, top: seq<Name>, rel: seq<Name>, prune: set<Name>) {
    Reaches(fs, top, rel, prune) && HasManifest(fs, top + rel)
  }

  /** Every relative path of `rs`, one level further down below `n`. */
  function Under(n: Name, rs: seq<seq<Name>>): (r: seq<seq<Name>>)
    ensures forall x :: x in r <==> |x| > 0 && x[0] == n && x[1..] in rs
  {
    var r := seq(|rs|, i requires 0 <= i < |rs| => [n] + rs[i]);
    assert forall x :: x in r ==> |x| > 0 && x[0] == n && x[1..] in rs by {
      forall x | x in r ensures |x| > 0 && x[0] == n && x[1..] in rs {
        var i :| 0 <= i < |r| && r[i] == x;
        assert x[1..] == rs[i];
      }
    }
    assert forall x :: |x| > 0 && x[0] == n && x[1..] in rs ==> x in r by {
      forall x | |x| > 0 && x[0] == n && x[1..] in rs ensures x in r {
        var i :| 0 <= i < |rs| && rs[i] == x[1..];
        assert r[i] == x;
      }
    }
    r
  }

  /** The directories below `top` that contain the manifest, as paths
      relative to `top`, in the order `os.walk` yields them: top-down, so
      `top` itself, when it qualifies, comes before everything below it. */
  function WalkFrom(fs: Snapshot, top: seq<Name>, prune: set<Name>): (r: seq<seq<Name>>)
    ensures !IsReadableDir(fs, top) ==> r == []
    ensures HasManifest(fs, top) ==> |r| > 0 && r[0] == []
    ensures [] in r <==> HasManifest(fs, top)
    decreases Height(fs) - |top|, 1
  {
    if IsReadableDir(fs, top) then
      (if HasManifest(fs, top) then [[]] else []) + Descend(fs, top, fs.nodes[top].listing, prune)
    else []
  }

  /** The walks of the listed entries `names` of `top` that are unpruned directories. */
  function Descend(fs: Snapshot, top: seq<Name>, names: seq<Name>, prune: set<Name>): (r: seq<seq<Name>>)
    requires top in fs.nodes
    ensures forall rel :: rel in r ==>
      |rel| > 0 && rel[0] in names && rel[0] !in prune && IsDirKey(fs, top + [rel[0]])
    decreases Height(fs) - |top|, 0, |names|
  {
    if names == [] then []
    else
      var child := top + [names[0]];
      (if names[0] !in prune && IsDirKey(fs, child) then Under(names[0], WalkFrom(fs, child, prune)) else [])
      + Descend(fs, top, names[1..], prune)
  }

  /** `get_model_directories(base)`: the walk from `base` as relative paths
      (rendered by `Render`, "." for `base`). A missing base gives []. */
  function ModelDirectories(fs: Snapshot, base: Path, prune: set<Name>): (r: seq<seq<Name>>)
    ensures !Exists(fs, base) ==> r == []
    ensures forall rel :: rel in r ==> forall i :: 0 <= i < |rel| ==> rel[i] !in prune
  {
    var r := WalkFrom(fs, Resolve(fs, base), prune);
    forall rel | rel in r
      ensures forall i :: 0 <= i < |rel| ==> rel[i] !in prune
    {
      WalkExact(fs, Resolve(fs, base), prune, rel);
      ReachesAvoidsPruned(fs, Resolve(fs, base), rel, prune);
    }
    r
  }

  /** The walk reports exactly the reachable directories holding the manifest. */
  lemma {:induction false} WalkExact(fs: Snapshot, top: seq<Name>, prune: set<Name>, rel: seq<Name>)
    ensures rel in WalkFrom(fs, top, prune) <==> Listed(fs, top, rel, prune)
    decreases Height(fs) - |top|, 1
  {
    if IsReadableDir(fs, top) {
      var listing := fs.nodes[top].listing;
      var head: seq<seq<Name>> := if HasManifest(fs, top) then [[]] else [];
      var rest := Descend(fs, top, listing, prune);
      assert WalkFrom(fs, top, prune) == head + rest;
      DescendExact(fs, top, listing, prune, rel);
      if rel == [] {
        ListedAtTop(fs, top, prune);
        assert rel !in rest;
      } else {
        ListedBelowTop(fs, top, rel, prune);
        assert rel !in head;
      }
    } else {
      assert WalkFrom(fs, top, prune) == [];
      assert !Reaches(fs, top, rel, prune);
    }
  }

  lemma ListedAtTop(fs: Snapshot, top: seq<Name>, prune: set<Name>)
    requires IsReadableDir(fs, top)
    ensures Listed(fs, top, [], prune) <==> HasManifest(fs, top)
  {
    assert top + [] == top;
  }

  lemma ListedBelowTop(fs: Snapshot, top: seq<Name>, rel: seq<Name>, prune: set<Name>)
    requires IsReadableDir(fs, top) && rel != []
    ensures Listed(fs, top, rel, prune) <==>
      rel[0] in fs.nodes[top].listing && rel[0] !in prune && Listed(fs, top + [rel[0]], rel[1..], prune)
  {
    assert top + rel == (top + [rel[0]]) + rel[1..];
  }

  lemma {:induction false} DescendExact(fs: Snapshot, top: seq<Name>, names: seq<Name>, prune: set<Name>, rel: seq<Name>)
    requires top in fs.nodes
    ensures rel in Descend(fs, top, names, prune) <==>
      |rel| > 0 && rel[0] in names && rel[0] !in prune && Listed(fs, top + [rel[0]], rel[1..], prune)
    decreases Height(fs) - |top|, 0, |names|
  {
    if names != [] {
      var n := names[0];
      var child := top + [n];
      var here: seq<seq<Name>> :=
        if n !in prune && IsDirKey(fs, child) then Under(n, WalkFrom(fs, child, prune)) else [];
      var later := Descend(fs, top, names[1..], prune);
      assert Descend(fs, top, names, prune) == here + later;
      assert rel in here + later <==> rel in here || rel in later;
      DescendExact(fs, top, names[1..], prune, rel);
      if n !in prune && IsDirKey(fs, child) {
        assert |child| <= Height(fs);
        if |rel| > 0 {
          WalkExact(fs, child, prune, rel[1..]);
        }
        assert rel in here <==> |rel| > 0 && rel[0] == n && rel[1..] in WalkFrom(fs, child, prune);
      } else {
        assert rel !in here;
        assert |rel| > 0 && rel[0] == n && rel[0] !in prune ==> !Reaches(fs, child, rel[1..], prune);
      }
      assert forall m :: m in names <==> m == n || m in names[1..];
    }
  }

  /** A reachable path ends in a readable directory. */
  lemma {:induction false} ReachesReadableDir(fs: Snapshot, top: seq<Name>, rel: seq<Name>, prune: set<Name>)
    requires Reaches(fs, top, rel, prune)
    ensures IsReadableDir(fs, top + rel)
    decreases |rel|
  {
    if rel == [] {
      assert top + rel == top;
    } else {
      ReachesReadableDir(fs, top + [rel[0]], rel[1..], prune);
      assert top + [rel[0]] + rel[1..] == top + rel;
    }
  }

  /** No component of a reachable path is a pruned name. */
  lemma {:induction false} ReachesAvoidsPruned(fs: Snapshot, top: seq<Name>, rel: seq<Name>, prune: set<Name>)
    requires Reaches(fs, top, rel, prune)
    ensures forall i :: 0 <= i < |rel| ==> rel[i] !in prune
    decreases |rel|
  {
    if rel != [] {
      ReachesAvoidsPruned(fs, top + [rel[0]], rel[1..], prune);
      assert forall i :: 1 <= i < |rel| ==> rel[i] == rel[1..][i - 1];
    }
  }

  /** `get_model_directories` of the diffusers UNET, CLIP and VAE nodes: a
      directory below `base` is listed exactly when it holds the manifest and
      the walk reaches it without entering vae, unet, text_encoder or
      text_encoder_2; directories below a listed one are still searched. */
  lemma DiffusersWalkExact(fs: Snapshot, base: Path, rel: seq<Name>)
    ensures rel in ModelDirectories(fs, base, ComponentDirs) <==> Listed(fs, Resolve(fs, base), rel, ComponentDirs)
  {
    WalkExact(fs, Resolve(fs, base), ComponentDirs, rel);
  }

  /** Without pruning (loader.py), every directory below `base` whose path
      consists of listed, readable directories and that holds the manifest is reported. */
  lemma UnprunedWalkExact(fs: Snapshot, base: Path, rel: seq<Name>)
    ensures rel in ModelDirectories(fs, base, {}) <==> Listed(fs, Resolve(fs, base), rel, {})
  {
    WalkExact(fs, Resolve(fs, base), {}, rel);
  }

  /** The walk's relative results as the relative paths the choices name
      (`os.path.relpath`, "." for the base itself). */
  function AsRelative(rels: seq<seq<Name>>): (r: seq<Path>)
    ensures forall q: Path :: q in r <==> !q.absolute && q.parts in rels
  {
    var r := seq(|rels|, i requires 0 <= i < |rels| => Path(false, rels[i]));
    assert forall q: Path :: !q.absolute && q.parts in rels ==> q in r by {
      forall q: Path | !q.absolute && q.parts in rels ensures q in r {
        var i :| 0 <= i < |rels| && rels[i] == q.parts;
        assert r[i] == q;
      }
    }
    r
  }

  /** `[d for d in names if os.path.isdir(os.path.join(dir, d))]` */
  function DirsAmong(fs: Snapshot, dir: seq<Name>, names: seq<Name>): (r: seq<Name>)
    ensures forall n :: n in r <==> n in names && IsDirKey(fs, dir + [n])
    ensures |r| <= |names|
    ensures (forall i :: 0 <= i < |names| ==> IsDirKey(fs, dir + [names[i]])) ==> r == names
  {
    if names == [] then []
    else
      var rest := DirsAmong(fs, dir, names[1..]);
      assert forall n :: n in names <==> n == names[0] || n in names[1..];
      if IsDirKey(fs, dir + [names[0]]) then [names[0]] + rest else rest
  }

  /** The immediate sub-directories of `base`, raising what `os.listdir` raises
      (`get_subdirectories` of the SDXL VAE, SDXL combined and SD1.5 VAE
      nodes, and the listing of the SDXL CLIP node). */
  function ImmediateDirs(fs: Snapshot, base: Path): (r: Result<seq<Name>>)
    ensures r.Ok? <==> ListDir(fs, base).Ok?
    ensures !Exists(fs, base) ==> r == Err(Error(FileNotFoundError, base))
    ensures r.Ok? ==> forall n :: n in r.value <==> n in ListDir(fs, base).value && IsDir(fs, base.Child(n))
  {
    var listing :- ListDir(fs, base);
    forall n ensures IsDir(fs, base.Child(n)) <==> IsDirKey(fs, Resolve(fs, base) + [n]) {
      ResolveChild(fs, base, n);
    }
    Ok(DirsAmong(fs, Resolve(fs, base), listing))
  }

  /** `get_sub_directory_list` of the SD1.5/SDXL UNET nodes and the listings
      of the SD1.5 CLIP and SD1.5 combined nodes: as `ImmediateDirs`, except
      that a missing base gives the empty list instead of an error. */
  function SubDirectoryList(fs: Snapshot, base: Path): (r: Result<seq<Name>>)
    ensures !Exists(fs, base) ==> r == Ok([])
    ensures Exists(fs, base) ==> r == ImmediateDirs(fs, base)
  {
    if !Exists(fs, base) then Ok([]) else ImmediateDirs(fs, base)
  }

  /** The choices of the diffusers UNET node: the pruned walk below
      `<root>/models/diffusers`, empty when that is missing. */
  function DiffusersChoices(fs: Snapshot, inst: Install): (r: seq<Path>)
    ensures !Exists(fs, DiffusersDir(inst)) ==> r == []
    ensures forall q: Path :: q in r <==> !q.absolute && Listed(fs, Resolve(fs, DiffusersDir(inst)), q.parts, ComponentDirs)
  {
    var rels := ModelDirectories(fs, DiffusersDir(inst), ComponentDirs);
    forall q: Path ensures q.parts in rels <==> Listed(fs, Resolve(fs, DiffusersDir(inst)), q.parts, ComponentDirs) {
      DiffusersWalkExact(fs, DiffusersDir(inst), q.parts);
    }
    AsRelative(rels)
  }

  /** The UNET node shows each choice as `os.path.relpath(root, base)`: the
      entry "." is offered exactly when models/diffusers itself holds the
      manifest, and it then names that folder and no other. */
  lemma BaseOfferedAsDot(fs: Snapshot, inst: Install)
    ensures (exists q :: q in DiffusersChoices(fs, inst) && Render(q.parts) == ".")
      <==> HasManifest(fs, Resolve(fs, DiffusersDir(inst)))
    ensures forall q :: q in DiffusersChoices(fs, inst) && Render(q.parts) == "." ==> q == Path(false, [])
  {
    var top := Resolve(fs, DiffusersDir(inst));
    assert top + [] == top;
    forall q | q in DiffusersChoices(fs, inst) && Render(q.parts) == "."
      ensures q == Path(false, []) && HasManifest(fs, top)
    {
      RenderDotOnlyForBase(q.parts);
    }
    if HasManifest(fs, top) {
      assert Listed(fs, top, [], ComponentDirs);
      assert Path(false, []) in DiffusersChoices(fs, inst);
      assert Render(Path(false, []).parts) == ".";
    }
  }

  /** The choices of the diffusers CLIP and VAE nodes: their `get_base_path`
      runs first and raises FileNotFoundError when `<root>/models/diffusers`
      is missing; otherwise the same pruned walk. */
  function CheckedDiffusersChoices(fs: Snapshot, inst: Install): (r: Result<seq<Path>>)
    ensures r.Ok? <==> Exists(fs, DiffusersDir(inst))
    ensures r.Err? ==> r.error == Error(FileNotFoundError, DiffusersDir(inst))
    ensures r.Ok? ==> forall q: Path :: q in r.value <==> !q.absolute && Listed(fs, Resolve(fs, DiffusersDir(inst)), q.parts, ComponentDirs)
  {
    var _ :- ExistingBase(fs, DiffusersDir(inst));
    Ok(DiffusersChoices(fs, inst))
  }
}

=== FILE: families.dfy ===
/** Model families: the folder-shape classifiers and the declarative
    criteria table.

    The classifiers look only at which component entries exist directly
    inside a model directory. They are ordered rule lists: the first rule
    that matches decides. base_loader.py has four rules; the diffusers UNET,
    CLIP and VAE nodes each carry the same two-rule copy. */
module Families {
  import opened Paths
  import opened Outcomes
  import opened Fs

  const TextEncoder: Name := "text_encoder"
  const TextEncoder2: Name := "text_encoder_2"
  const TextEncoder3: Name := "text_encoder_3"
  const Transformer: Name := "transformer"
  const Unet: Name := "unet"
  const Vae: Name := "vae"
  const Scheduler: Name := "scheduler"
  const Tokenizer: Name := "tokenizer"
  const Tokenizer2: Name := "tokenizer_2"
  const Tokenizer3: Name := "tokenizer_3"

  /** The family tags; the keys of `MODEL_TYPE_CRITERIA`. */
  datatype ModelType = SD15 | SD21 | SDXL | SD3 | AuraFlow | Flux

  /** The component names a shape is taken over. */
  const Probed: set<Name> :=
    {TextEncoder, TextEncoder2, TextEncoder3, Transformer, Unet, Vae, Scheduler, Tokenizer, Tokenizer2, Tokenizer3}

  /** The entries base_loader.py's rules consult. */
  const FourWayProbes: set<Name> := {TextEncoder, TextEncoder2, TextEncoder3, Transformer}

  /** Which probed components exist directly inside `dir`. */
  function ShapeOf(fs: Snapshot, dir: Path): (s: set<Name>)
    ensures forall n :: n in s <==> n in Probed && Exists(fs, dir.Child(n))
  {
    set n | n in Probed && Exists(fs, dir.Child(n))
  }

  /** `DiffusersLoaderBase.detect_model_type` on a shape: SD3, then SDXL,
      then AuraFlow, then SD15; `None` where the source raises. */
  function FourWayRule(s: set<Name>): (r: Option<ModelType>)
    ensures r == Some(SD3) <==> TextEncoder3 in s && Transformer in s
    ensures r == Some(SDXL) <==> TextEncoder in s && TextEncoder2 in s && !(TextEncoder3 in s && Transformer in s)
    ensures r == Some(AuraFlow) <==>
      TextEncoder in s && Transformer in s && TextEncoder2 !in s && TextEncoder3 !in s
    ensures r == Some(SD15) <==> TextEncoder in s && TextEncoder2 !in s && Transformer !in s
    ensures r == None <==> TextEncoder !in s && !(TextEncoder3 in s && Transformer in s)
    ensures r.Some? ==> r.value in {SD3, SDXL, AuraFlow, SD15}
  {
    if TextEncoder3 in s && Transformer in s then Some(SD3)
    else if TextEncoder in s && TextEncoder2 in s then Some(SDXL)
    else if TextEncoder in s && Transformer in s then Some(AuraFlow)
    else if TextEncoder in s then Some(SD15)
    else None
  }

  /** The two-rule copy in the diffusers UNET, CLIP and VAE nodes. */
  function TwoWayRule(s: set<Name>): (r: Option<ModelType>)
    ensures r == Some(SDXL) <==> TextEncoder in s && TextEncoder2 in s
    ensures r == Some(SD15) <==> TextEncoder in s && TextEncoder2 !in s
    ensures r == None <==> TextEncoder !in s
    ensures r.Some? ==> r.value in {SDXL, SD15}
  {
    if TextEncoder in s && TextEncoder2 in s then Some(SDXL)
    else if TextEncoder in s then Some(SD15)
    else None
  }

  /** `detect_model_type(sub_dir_path)` of base_loader.py: raises
      FileNotFoundError when no rule matches. */
  function DetectFourWay(fs: Snapshot, dir: Path): (r: Result<ModelType>)
    ensures r.Ok? <==> Exists(fs, dir.Child(TextEncoder))
                       || (Exists(fs, dir.Child(TextEncoder3)) && Exists(fs, dir.Child(Transformer)))
    ensures r == Ok(SD3) <==> Exists(fs, dir.Child(TextEncoder3)) && Exists(fs, dir.Child(Transformer))
    ensures r.Err? ==> r.error == Error(FileNotFoundError, dir)
  {
    FourWayRule(ShapeOf(fs, dir)).ToResult(Error(FileNotFoundError, dir))
  }

  /** `detect_model_type(sub_dir_path)` of the diffusers UNET, CLIP and VAE nodes. */
  function DetectTwoWay(fs: Snapshot, dir: Path): (r: Result<ModelType>)
    ensures r.Ok? <==> Exists(fs, dir.Child(TextEncoder))
    ensures r == Ok(SDXL) <==> Exists(fs, dir.Child(TextEncoder)) && Exists(fs, dir.Child(TextEncoder2))
    ensures r.Ok? ==> r.value in {SD15, SDXL}
    ensures r.Err? ==> r.error == Error(FileNotFoundError, dir)
  {
    TwoWayRule(ShapeOf(fs, dir)).ToResult(Error(FileNotFoundError, dir))
  }

  /** The four rules consult text_encoder, text_encoder_2, text_encoder_3
      and transformer only: unet, vae and everything else are ignored. */
  lemma FourWayIgnoresOtherEntries(s: set<Name>)
    ensures FourWayRule(s) == FourWayRule(s * FourWayProbes)
  {
  }

  /** Two snapshots that agree on whether the four consulted entries exist
      classify a directory alike. */
  lemma DetectFourWayDependsOnProbesOnly(fs1: Snapshot, fs2: Snapshot, dir: Path)
    requires forall n :: n in FourWayProbes ==> (Exists(fs1, dir.Child(n)) <==> Exists(fs2, dir.Child(n)))
    ensures DetectFourWay(fs1, dir) == DetectFourWay(fs2, dir)
  {
    FourWayIgnoresOtherEntries(ShapeOf(fs1, dir));
    FourWayIgnoresOtherEntries(ShapeOf(fs2, dir));
    assert ShapeOf(fs1, dir) * FourWayProbes == ShapeOf(fs2, dir) * FourWayProbes;
  }

  /** Rule order is precedence: a layout that meets both the SD3 and the
      SDXL condition is SD3, and "Flux" is never produced, so the Flux layout
      (text_encoder, text_encoder_2, transformer) is SDXL. */
  lemma FourWayPrecedence(s: set<Name>)
    ensures TextEncoder3 in s && Transformer in s && TextEncoder in s && TextEncoder2 in s ==> FourWayRule(s) == Some(SD3)
    ensures TextEncoder in s && TextEncoder2 in s && Transformer in s && TextEncoder3 !in s ==> FourWayRule(s) == Some(SDXL)
    ensures FourWayRule(s) != Some(Flux) && FourWayRule(s) != Some(SD21)
  {
  }

  /** Without a transformer entry both rule lists agree; with one but no
      text_encoder_2 or text_encoder_3 they part: AuraFlow against SD15. */
  lemma TwoWayAgreesWithoutTransformer(s: set<Name>)
    ensures Transformer !in s ==> TwoWayRule(s) == FourWayRule(s)
    ensures Transformer in s && TextEncoder in s && TextEncoder2 !in s && TextEncoder3 !in s ==>
      FourWayRule(s) == Some(AuraFlow) && TwoWayRule(s) == Some(SD15)
  {
  }

  /** One record of `MODEL_TYPE_CRITERIA`. Entries without
      "absent_components" have `absent == []`; the optional keys
      "feature_extractor" and "requires_safety_checker" are `Option`s. */
  datatype Criteria = Criteria(
    className: string,
    required: seq<Name>,
    absent: seq<Name>,
    featureExtractor: Option<seq<Option<string>>>,
    requiresSafetyChecker: Option<bool>)

  /** `MODEL_TYPE_CRITERIA`, in its insertion order. */
  const CriteriaOrder: seq<ModelType> := [SD15, SD21, SDXL, SD3, AuraFlow, Flux]

  function CriteriaFor(t: ModelType): Criteria {
    match t
    case SD15 => Criteria("StableDiffusionPipeline",
                   [TextEncoder, Unet, Vae, Scheduler, Tokenizer], [TextEncoder2],
                   Some([None, None]), Some(true))
    case SD21 => Criteria("StableDiffusionPipeline",
                   [TextEncoder, Unet, Vae, Scheduler, Tokenizer], [TextEncoder2],
                   Some([Some("transformers"), Some("CLIPImageProcessor")]), Some(false))
    case SDXL => Criteria("StableDiffusionXLPipeline",
                   [TextEncoder, TextEncoder2, Unet, Vae, Scheduler, Tokenizer, Tokenizer2], [],
                   None, None)
    case SD3 => Criteria("StableDiffusion3Pipeline",
                  [TextEncoder, TextEncoder2, TextEncoder3, Transformer, Vae, Scheduler, Tokenizer, Tokenizer2, Tokenizer3], [],
                  None, None)
    case AuraFlow => Criteria("AuraFlowPipeline",
                       [TextEncoder, Transformer, Vae, Scheduler, Tokenizer], [], None, None)
    case Flux => Criteria("FluxPipeline",
                   [TextEncoder, Transformer, Vae, Scheduler, Tokenizer], [], None, None)
  }

  function RequiredSet(t: ModelType): set<Name> {
    set n | n in CriteriaFor(t).required
  }

  /** SD15 and SD21 share class name and component lists and differ only
      in the feature extractor and the safety-checker flag. */
  lemma SD15AndSD21DifferOnlyInExtras()
    ensures CriteriaFor(SD15).className == CriteriaFor(SD21).className
    ensures CriteriaFor(SD15).required == CriteriaFor(SD21).required
    ensures CriteriaFor(SD15).absent == CriteriaFor(SD21).absent
    ensures CriteriaFor(SD15).featureExtractor != CriteriaFor(SD21).featureExtractor
    ensures CriteriaFor(SD15).requiresSafetyChecker != CriteriaFor(SD21).requiresSafetyChecker
  {
  }

  /** No entry both requires and forbids a component, and every entry
      requires text_encoder, vae, scheduler and tokenizer. */
  lemma CriteriaWellFormed(t: ModelType)
    ensures forall n :: n in CriteriaFor(t).absent ==> n !in CriteriaFor(t).required
    ensures {TextEncoder, Vae, Scheduler, Tokenizer} <= RequiredSet(t)
  {
  }

  /** SDXL requires SD15's components plus text_encoder_2 and tokenizer_2;
      AuraFlow and Flux require the same components and differ only in class name. */
  lemma CriteriaRelations()
    ensures RequiredSet(SDXL) == RequiredSet(SD15) + {TextEncoder2, Tokenizer2}
    ensures CriteriaFor(AuraFlow).required == CriteriaFor(Flux).required
    ensures CriteriaFor(AuraFlow).className != CriteriaFor(Flux).className
  {
  }

  /** The family the folder-shape rules give a directory holding exactly an
      entry's required components. */
  function ShapeFamily(t: ModelType): ModelType {
    match t
    case SD15 | SD21 => SD15
    case SDXL => SDXL
    case SD3 => SD3
    case AuraFlow | Flux => AuraFlow
  }

  /** Cross-check of the table against base_loader.py's rules: SD3 is SD3,
      SDXL is SDXL, SD15 and SD21 are SD15, AuraFlow and Flux are both AuraFlow. */
  lemma FourWayOnRequiredShapes(t: ModelType)
    ensures FourWayRule(RequiredSet(t)) == Some(ShapeFamily(t))
  {
    RequiredProbes(t);
  }

  /** Which of the entries base_loader.py's rules consult each family
      requires: text_encoder always, text_encoder_2 for SDXL and SD3,
      text_encoder_3 for SD3 only, transformer for SD3, AuraFlow and Flux. */
  lemma RequiredProbes(t: ModelType)
    ensures TextEncoder in RequiredSet(t)
    ensures TextEncoder2 in RequiredSet(t) <==> t == SDXL || t == SD3
    ensures TextEncoder3 in RequiredSet(t) <==> t == SD3
    ensures Transformer in RequiredSet(t) <==> t == SD3 || t == AuraFlow || t == Flux
  {
    var names := CriteriaFor(t).required;
    assert TextEncoder == names[0];
    match t
    case SD15 | SD21 =>
      assert names == [TextEncoder, Unet, Vae, Scheduler, Tokenizer];
    case SDXL =>
      assert TextEncoder2 == names[1];
    case SD3 =>
      assert TextEncoder2 == names[1] && TextEncoder3 == names[2] && Transformer == names[3];
    case AuraFlow | Flux =>
      assert Transformer == names[1];
  }

  /** The two-rule copy on the same shapes: every single-encoder family,
      including AuraFlow and Flux, is SD15, and SD3 is SDXL. */
  lemma TwoWayOnRequiredShapes(t: ModelType)
    ensures TwoWayRule(RequiredSet(t)) == Some(if t in {SDXL, SD3} then SDXL else SD15)
  {
  }
}

=== FILE: file_loaders.dfy ===
/** The utility loaders of utils.py: every file is checked for read and
    write access before it is read, and the whole-pipeline loaders read the
    model, then the optional VAE and text encoder(s), stopping at the first
    failure. The two file readers (`safe_open` and `json.load`) are
    parameters; `open` itself is modelled, since which error it raises
    depends only on the snapshot. */
module FileLoaders {
  import opened Paths
  import opened Outcomes
  import opened Fs
  import opened Layout
  import opened Host

  /** `load_safetensors` and `json.load` on an opened file. */
  datatype Readers = Readers(safetensors: Path -> Result<Handle>, json: Path -> Result<Handle>)

  /** Every call in `calls` is a read of a file that had read and write access. */
  predicate ReadsChecked(fs: Snapshot, calls: seq<Call>) {
    forall i :: 0 <= i < |calls| ==>
      (calls[i].ReadSafetensors? || calls[i].ReadJson?) && ReadWritable(fs, calls[i].path)
  }

  /** `check_file_permissions`: passes exactly when the file exists with
      read and write access, else raises PermissionError naming it. */
  function CheckPermissions(fs: Snapshot, p: Path): (r: Result<()>)
    ensures r.Ok? <==> Exists(fs, p) && fs.nodes[Resolve(fs, p)].mode.read && fs.nodes[Resolve(fs, p)].mode.write
    ensures r.Err? ==> r.error == Error(PermissionError, p)
  {
    if ReadWritable(fs, p) then Ok(()) else Err(Error(PermissionError, p))
  }

  /** `load_json`: `open(p, 'r')` raises FileNotFoundError for a missing
      file, PermissionError for an unreadable one and IsADirectoryError for
      a directory; only an opened file reaches the JSON reader. */
  function LoadJson(rd: Readers, fs: Snapshot, p: Path): (r: Traced<Handle>)
    ensures r.calls == [] || r.calls == [ReadJson(p)]
    ensures r.calls == [ReadJson(p)] <==>
      Exists(fs, p) && fs.nodes[Resolve(fs, p)].mode.read && !IsDir(fs, p)
    ensures r.calls == [ReadJson(p)] ==> r.result == rd.json(p)
    ensures !Exists(fs, p) ==> r.result == Err(Error(FileNotFoundError, p))
    ensures Exists(fs, p) && !fs.nodes[Resolve(fs, p)].mode.read ==> r.result == Err(Error(PermissionError, p))
    ensures Exists(fs, p) && fs.nodes[Resolve(fs, p)].mode.read && IsDir(fs, p) ==>
      r.result == Err(Error(IsADirectoryError, p))
  {
    var k := Resolve(fs, p);
    if k !in fs.nodes then Traced(Err(Error(FileNotFoundError, p)), [])
    else if !fs.nodes[k].mode.read then Traced(Err(Error(PermissionError, p)), [])
    else if fs.nodes[k].Dir? then Traced(Err(Error(IsADirectoryError, p)), [])
    else Traced(rd.json(p), [ReadJson(p)])
  }

  /** The permission check followed by `load_safetensors`: the shape of
      `load_vae_from_path`, `load_clip_from_path` and
      `load_text_encoder_from_path`. */
  function LoadCheckedSafetensors(rd: Readers, fs: Snapshot, file: Path): (r: Traced<Handle>)
    ensures ReadsChecked(fs, r.calls)
    ensures r.calls == [] <==> !ReadWritable(fs, file)
    ensures r.calls != [] ==> r == Traced(rd.safetensors(file), [ReadSafetensors(file)])
    ensures r.calls == [] ==> r.result == Err(Error(PermissionError, file))
  {
    match CheckPermissions(fs, file)
    case Err(e) => Traced(Err(e), [])
    case Ok(_) => Traced(rd.safetensors(file), [ReadSafetensors(file)])
  }

  /** `load_model_from_path`: after the permission check, a path ending in
      ".safetensors" goes to the safetensors reader and anything else to
      `load_json`. */
  function LoadModelFromPath(rd: Readers, fs: Snapshot, p: Path): (r: Traced<Handle>)
    ensures ReadsChecked(fs, r.calls)
    ensures |r.calls| <= 1
    ensures ReadSafetensors(p) in r.calls <==> ReadWritable(fs, p) && p.EndsWith(".safetensors")
    ensures ReadJson(p) in r.calls <==> ReadWritable(fs, p) && !p.EndsWith(".safetensors") && !IsDir(fs, p)
    ensures r.calls == [ReadSafetensors(p)] ==> r.result == rd.safetensors(p)
    ensures r.calls == [ReadJson(p)] ==> r.result == rd.json(p)
    ensures r.calls == [] ==>
      r.result == Err(Error(if ReadWritable(fs, p) then IsADirectoryError else PermissionError, p))
  {
    match CheckPermissions(fs, p)
    case Err(e) => Traced(Err(e), [])
    case Ok(_) =>
      if p.EndsWith(".safetensors") then Traced(rd.safetensors(p), [ReadSafetensors(p)])
      else LoadJson(rd, fs, p)
  }

  /** `load_vae_from_path`: reads exactly `<p>/vae/diffusion_pytorch_model.safetensors`,
      and only when it passes the permission check; returns what was read. */
  function LoadVaeFromPath(rd: Readers, fs: Snapshot, p: Path): (r: Traced<Handle>)
    ensures ReadsChecked(fs, r.calls)
    ensures r.calls == [] || r.calls == [ReadSafetensors(p.Child("vae").Child("diffusion_pytorch_model.safetensors"))]
    ensures r.calls != [] <==> ReadWritable(fs, VaeFile(p))
    ensures r.calls != [] ==> r.result == rd.safetensors(VaeFile(p))
    ensures r.calls == [] ==> r.result == Err(Error(PermissionError, VaeFile(p)))
    ensures forall i :: 0 <= i < |r.calls| ==> r.calls[i].path == VaeFile(p)
  {
    LoadCheckedSafetensors(rd, fs, VaeFile(p))
  }

  /** `load_clip_from_path`: reads exactly `<p>/clip/diffusion_pytorch_model.safetensors`,
      and only when it passes the permission check; returns what was read. */
  function LoadClipFromPath(rd: Readers, fs: Snapshot, p: Path): (r: Traced<Handle>)
    ensures ReadsChecked(fs, r.calls)
    ensures r.calls == [] || r.calls == [ReadSafetensors(p.Child("clip").Child("diffusion_pytorch_model.safetensors"))]
    ensures r.calls != [] <==> ReadWritable(fs, ClipFile(p))
    ensures r.calls != [] ==> r.result == rd.safetensors(ClipFile(p))
    ensures r.calls == [] ==> r.result == Err(Error(PermissionError, ClipFile(p)))
  {
    LoadCheckedSafetensors(rd, fs, ClipFile(p))
  }

  /** `load_text_encoder_from_path`: reads exactly
      `<p>/text_encoder/model.safetensors`, or `<p>/text_encoder_<id>/model.safetensors`
      when an id is given, and only when it passes the permission check;
      returns what was read. */
  function LoadTextEncoderFromPath(rd: Readers, fs: Snapshot, p: Path, id: Option<nat>): (r: Traced<Handle>)
    ensures ReadsChecked(fs, r.calls)
    ensures id.None? ==> r.calls == [] || r.calls == [ReadSafetensors(p.Child("text_encoder").Child("model.safetensors"))]
    ensures id.Some? ==> r.calls == [] || r.calls == [ReadSafetensors(p.Child("text_encoder_" + NatString(id.value)).Child("model.safetensors"))]
    ensures forall i :: 0 <= i < |r.calls| ==> r.calls[i].path == TextEncoderFile(p, id)
    ensures r.calls != [] <==> ReadWritable(fs, TextEncoderFile(p, id))
    ensures r.calls != [] ==> r.result == rd.safetensors(TextEncoderFile(p, id))
    ensures r.calls == [] ==> r.result == Err(Error(PermissionError, TextEncoderFile(p, id)))
  {
    var dir := EncoderDirName(id);
    assert id.Some? ==> dir == "text_encoder_" + NatString(id.value) by {
      if id.Some? { assert dir == dir[..13] + dir[13..]; }
    }
    LoadCheckedSafetensors(rd, fs, TextEncoderFile(p, id))
  }

  /** What `load_diffusers_model` returns: the VAE and the text encoder are
      `None` when not asked for. */
  datatype Loaded = Loaded(model: Handle, vae: Option<Handle>, clip: Option<Handle>)

  /** What `load_diffusers_sdxl_model` returns. */
  datatype LoadedSdxl = LoadedSdxl(model: Handle, vae: Option<Handle>, clip: Option<Handle>, textEncoder2: Handle)

  /** `X if flag else None`, as an optional load. */
  function Optionally(flag: bool, load: Traced<Handle>): (r: Traced<Option<Handle>>)
    ensures !flag ==> r == Traced(Ok(None), [])
    ensures flag ==> r.calls == load.calls
    ensures flag && load.result.Ok? ==> r.result == Ok(Some(load.result.value))
    ensures flag && load.result.Err? ==> r.result == Err(load.result.error)
  {
    if !flag then Traced(Ok(None), [])
    else match load.result
      case Ok(v) => Traced(Ok(Some(v)), load.calls)
      case Err(e) => Traced(Err(e), load.calls)
  }

  /** The first two steps both `load_diffusers_model` and
      `load_diffusers_sdxl_model` take: the model, then the VAE if
      `outputVae`; the first failure is raised. */
  function ModelAndVae(rd: Readers, fs: Snapshot, p: Path, outputVae: bool): (r: Traced<(Handle, Option<Handle>)>)
    ensures ReadsChecked(fs, r.calls)
    ensures var m := LoadModelFromPath(rd, fs, p).result;
      var v := LoadVaeFromPath(rd, fs, p).result;
      && (r.result.Ok? <==> m.Ok? && (outputVae ==> v.Ok?))
      && (r.result.Ok? ==>
            && Ok(r.result.value.0) == m
            && (r.result.value.1.Some? <==> outputVae)
            && (outputVae ==> Ok(r.result.value.1.value) == v))
      && (r.result.Err? ==> r.result.error == (if m.Err? then m.error else v.error))
    ensures forall i :: 0 <= i < |r.calls| ==>
      r.calls[i].path == p || (outputVae && r.calls[i].path == VaeFile(p))
  {
    var m := LoadModelFromPath(rd, fs, p);
    match m.result
    case Err(e) => Traced(Err(e), m.calls)
    case Ok(model) =>
      var v := Optionally(outputVae, LoadVaeFromPath(rd, fs, p));
      match v.result
      case Err(e) => Traced(Err(e), m.calls + v.calls)
      case Ok(vae) => Traced(Ok((model, vae)), m.calls + v.calls)
  }

  /** `load_diffusers_model`: the model, then the VAE if `outputVae`, then
      the text encoder if `outputClip`; the first failure is re-raised. */
  function LoadDiffusersModel(rd: Readers, fs: Snapshot, p: Path, outputVae: bool, outputClip: bool): (r: Traced<Loaded>)
    ensures ReadsChecked(fs, r.calls)
    ensures r.result.Ok? <==>
      LoadModelFromPath(rd, fs, p).result.Ok?
      && (outputVae ==> LoadVaeFromPath(rd, fs, p).result.Ok?)
      && (outputClip ==> LoadTextEncoderFromPath(rd, fs, p, None).result.Ok?)
    ensures r.result.Ok? ==>
      && Ok(r.result.value.model) == LoadModelFromPath(rd, fs, p).result
      && (r.result.value.vae.Some? <==> outputVae)
      && (r.result.value.clip.Some? <==> outputClip)
      && (outputVae ==> Ok(r.result.value.vae.value) == LoadVaeFromPath(rd, fs, p).result)
      && (outputClip ==> Ok(r.result.value.clip.value) == LoadTextEncoderFromPath(rd, fs, p, None).result)
    ensures r.result.Err? ==>
      var m := LoadModelFromPath(rd, fs, p).result;
      var v := LoadVaeFromPath(rd, fs, p).result;
      r.result.error == (if m.Err? then m.error else if outputVae && v.Err? then v.error
                         else LoadTextEncoderFromPath(rd, fs, p, None).result.error)
    ensures forall i :: 0 <= i < |r.calls| ==>
      r.calls[i].path == p || (outputVae && r.calls[i].path == VaeFile(p))
      || (outputClip && r.calls[i].path == TextEncoderFile(p, None))
  {
    var mv := ModelAndVae(rd, fs, p, outputVae);
    match mv.result
    case Err(e) => Traced(Err(e), mv.calls)
    case Ok((model, vae)) =>
      var c := Optionally(outputClip, LoadTextEncoderFromPath(rd, fs, p, None));
      match c.result
      case Err(e) => Traced(Err(e), mv.calls + c.calls)
      case Ok(clip) => Traced(Ok(Loaded(model, vae, clip)), mv.calls + c.calls)
  }

  /** The two text-encoder steps of `load_diffusers_sdxl_model`: id 1 if
      `outputClip`, then id 2 unconditionally; the first failure is raised. */
  function SdxlEncoders(rd: Readers, fs: Snapshot, p: Path, outputClip: bool): (r: Traced<(Option<Handle>, Handle)>)
    ensures ReadsChecked(fs, r.calls)
    ensures var te1 := LoadTextEncoderFromPath(rd, fs, p, Some(1)).result;
      var te2 := LoadTextEncoderFromPath(rd, fs, p, Some(2)).result;
      && (r.result.Ok? <==> (outputClip ==> te1.Ok?) && te2.Ok?)
      && (r.result.Ok? ==>
            && (r.result.value.0.Some? <==> outputClip)
            && (outputClip ==> Ok(r.result.value.0.value) == te1)
            && Ok(r.result.value.1) == te2)
      && (r.result.Err? ==> r.result.error == (if outputClip && te1.Err? then te1.error else te2.error))
    ensures forall i :: 0 <= i < |r.calls| ==>
      (outputClip && r.calls[i].path == TextEncoderFile(p, Some(1))) || r.calls[i].path == TextEncoderFile(p, Some(2))
    ensures r.result.Ok? ==> ReadSafetensors(TextEncoderFile(p, Some(2))) in r.calls
  {
    var c := Optionally(outputClip, LoadTextEncoderFromPath(rd, fs, p, Some(1)));
    match c.result
    case Err(e) => Traced(Err(e), c.calls)
    case Ok(clip) =>
      var t := LoadTextEncoderFromPath(rd, fs, p, Some(2));
      match t.result
      case Err(e) => Traced(Err(e), c.calls + t.calls)
      case Ok(te2) => Traced(Ok((clip, te2)), c.calls + t.calls)
  }

  /** `load_diffusers_sdxl_model`: the model, the VAE if `outputVae`, the
      text encoder with id 1 if `outputClip`, and then, whatever
      `outputClip` says, the text encoder with id 2. */
  function LoadDiffusersSdxlModel(rd: Readers, fs: Snapshot, p: Path, outputVae: bool, outputClip: bool): (r: Traced<LoadedSdxl>)
    ensures ReadsChecked(fs, r.calls)
    ensures r.result.Ok? <==>
      LoadModelFromPath(rd, fs, p).result.Ok?
      && (outputVae ==> LoadVaeFromPath(rd, fs, p).result.Ok?)
      && (outputClip ==> LoadTextEncoderFromPath(rd, fs, p, Some(1)).result.Ok?)
      && LoadTextEncoderFromPath(rd, fs, p, Some(2)).result.Ok?
    ensures r.result.Ok? ==>
      && Ok(r.result.value.model) == LoadModelFromPath(rd, fs, p).result
      && (r.result.value.vae.Some? <==> outputVae)
      && (r.result.value.clip.Some? <==> outputClip)
      && (outputVae ==> Ok(r.result.value.vae.value) == LoadVaeFromPath(rd, fs, p).result)
      && (outputClip ==> Ok(r.result.value.clip.value) == LoadTextEncoderFromPath(rd, fs, p, Some(1)).result)
      && Ok(r.result.value.textEncoder2) == LoadTextEncoderFromPath(rd, fs, p, Some(2)).result
    ensures r.result.Ok? ==> ReadSafetensors(TextEncoderFile(p, Some(2))) in r.calls
    ensures r.result.Err? ==>
      var m := LoadModelFromPath(rd, fs, p).result;
      var v := LoadVaeFromPath(rd, fs, p).result;
      var te1 := LoadTextEncoderFromPath(rd, fs, p, Some(1)).result;
      r.result.error == (if m.Err? then m.error else if outputVae && v.Err? then v.error
                         else if outputClip && te1.Err? then te1.error
                         else LoadTextEncoderFromPath(rd, fs, p, Some(2)).result.error)
    ensures forall i :: 0 <= i < |r.calls| ==>
      r.calls[i].path == p || (outputVae && r.calls[i].path == VaeFile(p))
      || (outputClip && r.calls[i].path == TextEncoderFile(p, Some(1)))
      || r.calls[i].path == TextEncoderFile(p, Some(2))
  {
    var mv := ModelAndVae(rd, fs, p, outputVae);
    match mv.result
    case Err(e) => Traced(Err(e), mv.calls)
    case Ok((model, vae)) =>
      var e := SdxlEncoders(rd, fs, p, outputClip);
      match e.result
      case Err(err) => Traced(Err(err), mv.calls + e.calls)
      case Ok(encoders) => Traced(Ok(LoadedSdxl(model, vae, encoders.0, encoders.1)), mv.calls + e.calls)
  }

  /** A directory whose name does not end in ".safetensors" is never loaded
      as a model: it fails the access check, or `open` refuses it. */
  lemma DirectoryIsNeverLoaded(rd: Readers, fs: Snapshot, p: Path, outputVae: bool, outputClip: bool)
    requires IsDir(fs, p) && !p.EndsWith(".safetensors")
    ensures LoadModelFromPath(rd, fs, p).calls == []
    ensures LoadModelFromPath(rd, fs, p).result.Err?
    ensures LoadModelFromPath(rd, fs, p).result.error.kind in {PermissionError, IsADirectoryError}
    ensures LoadDiffusersModel(rd, fs, p, outputVae, outputClip).result.Err?
    ensures LoadDiffusersSdxlModel(rd, fs, p, outputVae, outputClip).result.Err?
  {
  }

  /** With `outputClip` the SDXL loader needs `<p>/text_encoder_1/model.safetensors`,
      a directory the diffusers SDXL layout (text_encoder, text_encoder_2)
      does not have: without it the load fails with PermissionError. */
  lemma SdxlClipNeedsTextEncoder1(rd: Readers, fs: Snapshot, p: Path, outputVae: bool)
    requires !Exists(fs, p.Child("text_encoder_1").Child("model.safetensors"))
    ensures LoadDiffusersSdxlModel(rd, fs, p, outputVae, true).result.Err?
    ensures LoadModelFromPath(rd, fs, p).result.Ok? && (outputVae ==> LoadVaeFromPath(rd, fs, p).result.Ok?) ==>
      LoadDiffusersSdxlModel(rd, fs, p, outputVae, true).result.error
        == Error(PermissionError, p.Child("text_encoder_1").Child("model.safetensors"))
  {
    SdxlEncoderIds();
  }
}

=== FILE: fs.dfy ===
/** An immutable snapshot of the filesystem the loaders look at.

    Every existing file or directory is a key of `nodes`: the absolute
    sequence of its components. A directory carries its listing in
    `os.listdir` order. Permission bits are reduced to the two `os.access`
    flags the loaders use. Relative paths resolve against `cwd`. */
module Fs {
  import opened Paths
  import opened Outcomes

  datatype Mode = Mode(read: bool, write: bool)

  datatype Node =
    | File(mode: Mode)
    | Dir(listing: seq<Name>, mode: Mode)

  datatype Snapshot = Snapshot(cwd: seq<Name>, nodes: map<seq<Name>, Node>)

  /** The key a path names in the snapshot. */
  function Resolve(fs: Snapshot, p: Path): seq<Name> {
    if p.absolute then p.parts else fs.cwd + p.parts
  }

  /** Resolving `os.path.join(p, n)` appends `n` to the key of `p`. */
  lemma ResolveChild(fs: Snapshot, p: Path, n: Name)
    ensures Resolve(fs, p.Child(n)) == Resolve(fs, p) + [n]
  {
    if !p.absolute {
      assert fs.cwd + (p.parts + [n]) == (fs.cwd + p.parts) + [n];
    }
  }

  /** `os.path.exists(p)` */
  predicate Exists(fs: Snapshot, p: Path) {
    Resolve(fs, p) in fs.nodes
  }

  predicate IsDirKey(fs: Snapshot, k: seq<Name>) {
    k in fs.nodes && fs.nodes[k].Dir?
  }

  /** `os.path.isdir(p)` */
  predicate IsDir(fs: Snapshot, p: Path) {
    IsDirKey(fs, Resolve(fs, p))
  }

  /** `os.access(p, os.R_OK | os.W_OK)`: false for a missing path. */
  predicate ReadWritable(fs: Snapshot, p: Path) {
    var k := Resolve(fs, p);
    k in fs.nodes && fs.nodes[k].mode.read && fs.nodes[k].mode.write
  }

  /** `os.listdir(p)` with the errors it raises. */
  function ListDir(fs: Snapshot, p: Path): (r: Result<seq<Name>>)
    ensures r.Ok? <==> IsDir(fs, p) && fs.nodes[Resolve(fs, p)].mode.read
    ensures r.Ok? ==> r.value == fs.nodes[Resolve(fs, p)].listing
    ensures r.Err? && !Exists(fs, p) ==> r.error == Error(FileNotFoundError, p)
    ensures r.Err? ==> r.error.about == p
  {
    var k := Resolve(fs, p);
    if k !in fs.nodes then Err(Error(FileNotFoundError, p))
    else match fs.nodes[k]
      case File(_) => Err(Error(NotADirectoryError, p))
      case Dir(listing, mode) =>
        if mode.read then Ok(listing) else Err(Error(PermissionError, p))
  }

  /** A snapshot an operating system can present: every name a directory
      lists exists under that directory. */
  ghost predicate Consistent(fs: Snapshot) {
    forall k, i :: k in fs.nodes && fs.nodes[k].Dir? && 0 <= i < |fs.nodes[k].listing|
      ==> k + [fs.nodes[k].listing[i]] in fs.nodes
  }

  /** In a consistent snapshot, a name a directory lists exists. */
  lemma ListedNameExists(fs: Snapshot, dir: Path, n: Name)
    requires Consistent(fs)
    requires ListDir(fs, dir).Ok? && n in ListDir(fs, dir).value
    ensures Exists(fs, dir.Child(n))
  {
    var k := Resolve(fs, dir);
    var i :| 0 <= i < |fs.nodes[k].listing| && fs.nodes[k].listing[i] == n;
    assert k + [fs.nodes[k].listing[i]] in fs.nodes;
    assert Resolve(fs, dir.Child(n)) == k + [n];
  }

  /** Longest key of the snapshot; bounds how deep a walk can descend. */
  ghost function Height(fs: Snapshot): nat {
    MaxLength(fs.nodes.Keys)
  }

  ghost function MaxLength(ks: set<seq<Name>>): (m: nat)
    ensures forall k :: k in ks ==> |k| <= m
    decreases ks
  {
    if ks == {} then 0
    else
      var k :| k in ks;
      var rest := MaxLength(ks - {k});
      if |k| > rest then |k| else rest
  }
}

=== FILE: host.dfy ===
/** The boundary to code the plugin calls but does not contain.

    The host's loaders (`comfy.sd.load_unet`, `comfy.sd.load_clip`,
    `comfy.utils.load_torch_file`, `comfy.sd.VAE`), the file readers of
    utils.py (`safe_open`, `json.load`) and the `DiffusersUtils` helpers are
    parameters: functions from their arguments to a handle or an error.
    Every node also returns the trace of the calls it made, in order, so
    that "checked before loaded" and "never called" can be stated. */
module Host {
  import opened Paths
  import opened Outcomes
  import opened Fs
  import opened ClipTypes

  /** Whatever a foreign loader hands back: a model, a CLIP, a VAE, a state
      dict or a tensor dictionary. The plugin never looks inside. */
  datatype Handle = Handle(id: nat)

  /** One call out of the plugin. */
  datatype Call =
    | CacheCheck(kind: string, path: Path)
    | CombineShards(dir: Path, modelDir: Path, parts: nat)
    | LoadUnet(path: Path)
    | LoadClip(ckptPaths: seq<Path>, embeddingDir: Path, clipType: ClipType)
    | LoadTorchFile(path: Path)
    | MakeVae(sd: Handle)
    | ReadSafetensors(path: Path)
    | ReadJson(path: Path)

  /** The outcome of an operation that leaves the filesystem alone. */
  datatype Traced<+T> = Traced(result: Result<T>, calls: seq<Call>)

  /** The outcome of an operation that may rename a folder: the snapshot
      afterwards is part of it. */
  datatype Step<+T> = Step(result: Result<T>, fs: Snapshot, calls: seq<Call>)

  /** The host's loaders. `hasTokenize` is `hasattr(clip, 'tokenize')`. */
  datatype Comfy = Comfy(
    loadUnet: Path -> Result<Handle>,
    loadClip: (seq<Path>, Path, ClipType) -> Result<Handle>,
    loadTorchFile: Path -> Result<Handle>,
    makeVae: Handle -> Result<Handle>,
    hasTokenize: Handle -> bool)

  /** The `DiffusersUtils` helpers unet_loader.py and clip_loader.py call.
      Their definitions are not part of this model: `basePath` is what
      `get_base_path()` gives, `find` is `find_model_file`, `combine` is
      `combine_safetensor_files(dir, model_dir, num_parts)` and `cacheCheck`
      is `check_and_clear_cache(kind, path)`. */
  datatype Utils = Utils(
    basePath: Result<Path>,
    find: Path -> Result<Path>,
    combine: (Path, Path, nat) -> Result<Path>,
    cacheCheck: (string, Path) -> Result<()>)

  /** `comfy.sd.load_clip(ckpt_paths, embedding_directory, clip_type)` */
  function ClipLoad(comfy: Comfy, paths: seq<Path>, embeddings: Path, ct: ClipType): (r: Traced<Handle>)
    ensures r.calls == [LoadClip(paths, embeddings, ct)]
    ensures r.result == comfy.loadClip(paths, embeddings, ct)
  {
    Traced(comfy.loadClip(paths, embeddings, ct), [LoadClip(paths, embeddings, ct)])
  }

  /** `sd = comfy.utils.load_torch_file(path); comfy.sd.VAE(sd=sd)`: the
      state dict is loaded first, and the VAE is built only from a state dict
      that loaded; a failure of either step is the node's failure. */
  function VaeLoad(comfy: Comfy, path: Path): (r: Traced<Handle>)
    ensures 1 <= |r.calls| <= 2 && r.calls[0] == LoadTorchFile(path)
    ensures |r.calls| == 2 <==> comfy.loadTorchFile(path).Ok?
    ensures |r.calls| == 2 ==> r.calls[1].MakeVae?
    ensures forall sd :: MakeVae(sd) in r.calls ==> comfy.loadTorchFile(path) == Ok(sd)
    ensures r.result.Ok? ==> |r.calls| == 2 && r.result == comfy.makeVae(r.calls[1].sd)
    ensures r.result.Err? ==>
      var loaded := comfy.loadTorchFile(path);
      (loaded.Err? && r.result == loaded) || (loaded.Ok? && r.result == comfy.makeVae(loaded.value))
  {
    match comfy.loadTorchFile(path)
    case Err(e) => Traced(Err(e), [LoadTorchFile(path)])
    case Ok(sd) => Traced(comfy.makeVae(sd), [LoadTorchFile(path), MakeVae(sd)])
  }
}

=== FILE: layout.dfy ===
/** Where the loaders look: the fixed directory layout under the ComfyUI
    root, the component sub-directories each family contributes, the fixed
    file names of utils.py, and loader.py's search-path resolution. */
module Layout {
  import opened Paths
  import opened Outcomes
  import opened Fs
  import opened Families

  /** The directory a node treats as the ComfyUI root: `root` is
      `abspath(dirname(__file__)/../..)` for the node's own source file (see
      `InstallOf`). For every file at the top of the plugin that is the
      ComfyUI installation; for Old/sd15_vae_loader.py, one level deeper, it
      is the plugin's parent directory (`custom_nodes`). */
  datatype Install = Install(root: seq<Name>)

  /** `abspath(join(moduleDir, "..", ".."))`: two components up, stopping at
      the filesystem root as ".." of "/" does. */
  function InstallOf(moduleDir: seq<Name>): (i: Install)
    ensures |moduleDir| >= 2 ==> i.root == moduleDir[..|moduleDir| - 2]
    ensures |moduleDir| < 2 ==> i.root == []
    ensures |i.root| == if |moduleDir| >= 2 then |moduleDir| - 2 else 0
  {
    if |moduleDir| < 2 then Install([]) else Install(moduleDir[..|moduleDir| - 2])
  }

  const OldFolder: Name := "Old"

  /** A node in the plugin's Old/ folder computes its root from one level
      deeper: it lands on the plugin's parent, one component below the root
      every other node uses, so its `models/diffusers/SD15` is a different
      directory. */
  lemma OldNodeRootIsPluginParent(pluginDir: seq<Name>)
    requires |pluginDir| >= 2
    ensures InstallOf(pluginDir + [OldFolder]).root == pluginDir[..|pluginDir| - 1]
    ensures InstallOf(pluginDir + [OldFolder]).root == InstallOf(pluginDir).root + [pluginDir[|pluginDir| - 2]]
    ensures InstallOf(pluginDir + [OldFolder]) != InstallOf(pluginDir)
  {
    var deeper := pluginDir + [OldFolder];
    assert deeper[..|deeper| - 2] == pluginDir[..|pluginDir| - 1];
    assert pluginDir[..|pluginDir| - 1] == pluginDir[..|pluginDir| - 2] + [pluginDir[|pluginDir| - 2]];
  }

  const ModelsFolder: Name := "models"
  const DiffusersFolder: Name := "diffusers"
  const EmbeddingsFolder: Name := "embeddings"
  const SD15Folder: Name := "SD15"
  const SDXLFolder: Name := "SDXL"
  const ModelFile: Name := "model.safetensors"
  const PytorchModelFile: Name := "diffusion_pytorch_model.safetensors"
  const ClipFolder: Name := "clip"
  const CombinedTextEncoder: Name := "combined_text_encoder.safetensors"

  function Models(i: Install): Path {
    Path(true, i.root + [ModelsFolder])
  }

  /** `<root>/models/diffusers` */
  function DiffusersDir(i: Install): Path {
    Models(i).Child(DiffusersFolder)
  }

  /** `<root>/models/diffusers/<family>`: the SD15 and SDXL trees of the
      family-specific nodes. */
  function FamilyDir(i: Install, family: Name): Path {
    DiffusersDir(i).Child(family)
  }

  /** `get_folder_paths(folder_type)` of folder_paths.py. */
  function FolderPaths(i: Install, folderType: string): (r: seq<Path>)
    ensures |r| <= 1
    ensures r != [] <==> folderType in {"diffusers", "embeddings"}
    ensures r != [] ==> r[0].absolute && r[0].parts == Models(i).parts + [folderType]
  {
    if folderType == "diffusers" then [Models(i).Child(DiffusersFolder)]
    else if folderType == "embeddings" then [Models(i).Child(EmbeddingsFolder)]
    else []
  }

  /** The `get_base_path` helpers that raise: the directory if it exists,
      FileNotFoundError otherwise. */
  function ExistingBase(fs: Snapshot, p: Path): (r: Result<Path>)
    ensures r.Ok? <==> Exists(fs, p)
    ensures r.Ok? ==> r.value == p
    ensures r.Err? ==> r.error == Error(FileNotFoundError, p)
  {
    if Exists(fs, p) then Ok(p) else Err(Error(FileNotFoundError, p))
  }

  /** `search_path` is usable for `model_path` in loader.py's loop. */
  predicate Hit(fs: Snapshot, searchPath: Path, modelPath: Path) {
    Exists(fs, searchPath) && Exists(fs, Join(searchPath, modelPath))
  }

  ghost predicate FirstHitAt(fs: Snapshot, searchPaths: seq<Path>, modelPath: Path, i: nat) {
    i < |searchPaths| && Hit(fs, searchPaths[i], modelPath)
    && forall j :: 0 <= j < i ==> !Hit(fs, searchPaths[j], modelPath)
  }

  /** The position of the first search path that is a hit, if any. */
  function FirstHit(fs: Snapshot, searchPaths: seq<Path>, modelPath: Path): (r: Option<nat>)
    ensures r.Some? ==> FirstHitAt(fs, searchPaths, modelPath, r.value)
    ensures r.None? ==> forall j :: 0 <= j < |searchPaths| ==> !Hit(fs, searchPaths[j], modelPath)
  {
    if searchPaths == [] then None
    else if Hit(fs, searchPaths[0], modelPath) then Some(0)
    else match FirstHit(fs, searchPaths[1..], modelPath)
      case None => None
      case Some(i) =>
        assert forall j :: 1 <= j < |searchPaths| ==> searchPaths[j] == searchPaths[1..][j - 1];
        Some(i + 1)
  }

  /** The loop of `load_checkpoint` in loader.py: `model_path` joined onto
      the first search path where the join exists; unchanged if there is none. */
  function ResolveModelPath(fs: Snapshot, searchPaths: seq<Path>, modelPath: Path): (r: Path)
    ensures (exists i: nat :: FirstHitAt(fs, searchPaths, modelPath, i) && r == Join(searchPaths[i], modelPath))
         || ((forall j :: 0 <= j < |searchPaths| ==> !Hit(fs, searchPaths[j], modelPath)) && r == modelPath)
  {
    match FirstHit(fs, searchPaths, modelPath)
    case Some(i) => Join(searchPaths[i], modelPath)
    case None => modelPath
  }

  /** The folder `load_model` of unet_loader.py loads from: transformer for
      SD3, unet for every other family, AuraFlow included. */
  function UnetFolderName(t: ModelType): (r: Name)
    ensures r == Transformer <==> t == SD3
    ensures r != Transformer ==> r == Unet
  {
    if t == SD3 then Transformer else Unet
  }

  /** The text-encoder directories `get_text_encoder_paths` of clip_loader.py
      takes one file from each, in order. */
  function EncoderDirs(t: ModelType): (r: seq<Name>)
    ensures |r| >= 1 && r[0] == TextEncoder
    ensures |r| == (if t == SD3 then 3 else if t in {SDXL, Flux} then 2 else 1)
    ensures |r| >= 2 ==> r[1] == TextEncoder2
    ensures |r| == 3 ==> r[2] == TextEncoder3
  {
    if t == SD3 then [TextEncoder, TextEncoder2, TextEncoder3]
    else if t in {SDXL, Flux} then [TextEncoder, TextEncoder2]
    else [TextEncoder]
  }

  /** Each family's encoder directories are among its required components,
      except Flux's text_encoder_2, which the criteria table does not require. */
  lemma EncoderDirsAgainstCriteria(t: ModelType)
    ensures t != Flux ==> forall n :: n in EncoderDirs(t) ==> n in RequiredSet(t)
    ensures TextEncoder2 in EncoderDirs(Flux) && TextEncoder2 !in RequiredSet(Flux)
  {
  }

  function Digit(d: nat): (c: char)
    requires d < 10
    ensures '0' <= c <= '9'
  {
    "0123456789"[d]
  }

  /** The decimal rendering of `n`, as an f-string writes it. */
  function NatString(n: nat): (s: string)
    ensures |s| > 0 && forall k :: 0 <= k < |s| ==> '0' <= s[k] <= '9'
  {
    if n < 10 then [Digit(n)] else NatString(n / 10) + [Digit(n % 10)]
  }

  /** The directory `load_text_encoder_from_path` of utils.py reads:
      "text_encoder" without an id, "text_encoder_<id>" with one. */
  function EncoderDirName(id: Option<nat>): (r: Name)
    ensures id.None? <==> r == TextEncoder
    ensures id.Some? ==> |r| > 13 && r[..13] == "text_encoder_" && r[13..] == NatString(id.value)
  {
    match id
    case None => TextEncoder
    case Some(k) =>
      var s := "text_encoder_" + NatString(k);
      assert s[..13] == "text_encoder_" && s[13..] == NatString(k);
      assert forall c :: c in s ==> c == '_' || 'a' <= c <= 'z' || '0' <= c <= '9' by {
        forall c | c in s ensures c == '_' || 'a' <= c <= 'z' || '0' <= c <= '9' {
          var j :| 0 <= j < |s| && s[j] == c;
          if j >= 13 { assert s[j] == NatString(k)[j - 13]; }
        }
      }
      assert |s| > 13 && s != TextEncoder;
      s
  }

  /** `<p>/text_encoder[_<id>]/model.safetensors` */
  function TextEncoderFile(p: Path, id: Option<nat>): Path {
    p.Child(EncoderDirName(id)).Child(ModelFile)
  }

  /** `<p>/vae/diffusion_pytorch_model.safetensors` */
  function VaeFile(p: Path): Path {
    p.Child(Vae).Child(PytorchModelFile)
  }

  /** `<p>/clip/diffusion_pytorch_model.safetensors` */
  function ClipFile(p: Path): Path {
    p.Child(ClipFolder).Child(PytorchModelFile)
  }

  /** The SDXL utility loader asks for encoder ids 1 and 2: the second is the
      diffusers text_encoder_2 directory, but the first is "text_encoder_1",
      not the "text_encoder" directory the diffusers layout uses. */
  lemma SdxlEncoderIds()
    ensures EncoderDirName(Some(2)) == TextEncoder2
    ensures EncoderDirName(Some(1)) == "text_encoder_1" && EncoderDirName(Some(1)) != TextEncoder
  {
    assert NatString(1) == "1" && NatString(2) == "2";
  }
}

=== FILE: outcomes.dfy ===
/** Failure-compatible result types and the exception classes the loaders raise.

    Python exceptions become `Err` values; the exception class is kept as an
    `ErrorKind` because several loaders branch on it (`except PermissionError`),
    and `about` is the path the error concerns. */
module Outcomes {
  import opened Paths

  datatype Option<+T> = None | Some(value: T) {
    function ToResult(e: Error): Result<T>
    {
      match this
      case Some(v) => Ok(v)
      case None => Err(e)
    }
  }

  /** The Python exception classes that matter to the loaders. `Other` stands
      for any class the loaders do not single out. */
  datatype ErrorKind =
    | FileNotFoundError
    | PermissionError
    | NotADirectoryError
    | IsADirectoryError
    | FileExistsError
    | ValueError
    | AttributeError
    | Other(code: nat)

  /** A raised exception: its class and the path its message names (for an
      error whose message names no path, the directory being processed). */
  datatype Error = Error(kind: ErrorKind, about: Path)

  datatype Result<+T> = Ok(value: T) | Err(error: Error) {
    predicate IsFailure() {
      Err?
    }

    function PropagateFailure<U>(): Result<U>
      requires Err?
    {
      Err(error)
    }

    function Extract(): T
      requires Ok?
    {
      value
    }
  }
}

=== FILE: paths.dfy ===
/** Path names and `os.path.join`.

    A path is a flag saying whether it is absolute plus the sequence of its
    components. Components are directory-entry names as `os.listdir` returns
    them: never empty, never containing the separator, never "." or "..".
    With that representation `os.path.join` keeps its one surprising rule: an
    absolute right operand discards the left one. */
module Paths {

  predicate ValidName(s: string) {
    |s| > 0 && '/' !in s && s != "." && s != ".."
  }

  type Name = s: string | ValidName(s) witness "a"

  datatype Path = Path(absolute: bool, parts: seq<Name>) {

    /** `os.path.join(self, name)` for a single component. */
    function Child(n: Name): (r: Path)
      ensures r == Join(this, Path(false, [n]))
    {
      Path(absolute, parts + [n])
    }

    /** The string `str(self)` ends with `suffix`. A suffix without a
        separator can only end the last component. */
    predicate EndsWith(suffix: string)
      requires '/' !in suffix && |suffix| > 0
    {
      |parts| > 0 && StringEndsWith(parts[|parts| - 1], suffix)
    }
  }

  /** `os.path.join(a, b)`: an absolute `b` wins outright, otherwise the
      components of `b` follow those of `a`. */
  function Join(a: Path, b: Path): (r: Path)
    ensures b.absolute ==> r == b
    ensures !b.absolute ==> r.absolute == a.absolute && r.parts == a.parts + b.parts
  {
    if b.absolute then b else Path(a.absolute, a.parts + b.parts)
  }

  /** `s.endswith(suffix)` */
  predicate StringEndsWith(s: string, suffix: string) {
    |suffix| <= |s| && s[|s| - |suffix|..] == suffix
  }

  /** A relative path of one component, as a bare file name is used. */
  function Rel(n: Name): Path {
    Path(false, [n])
  }

  /** `os.path.relpath(root, base)` for a directory `rel` components below
      `base`: "." for the base itself, else the components joined by '/'. */
  function Render(rel: seq<Name>): (r: string)
    ensures |rel| > 0 ==> |r| >= |rel[0]|
  {
    if rel == [] then "."
    else if |rel| == 1 then rel[0]
    else rel[0] + "/" + Render(rel[1..])
  }

  /** The walk's base directory is the only one rendered as ".". */
  lemma {:induction false} RenderDotOnlyForBase(rel: seq<Name>)
    ensures Render(rel) == "." <==> rel == []
  {
    if |rel| == 1 {
      assert Render(rel) == rel[0];
    } else if |rel| > 1 {
      assert |Render(rel)| >= |rel[0]| + 1;
      assert |rel[0]| >= 1;
    }
  }

  /** Re-joining a path that is already absolute onto any directory leaves
      it unchanged. */
  lemma JoinAbsoluteIsIdentity(dir: Path, p: Path)
    requires p.absolute
    ensures Join(dir, p) == p
  {
  }
}

=== FILE: quarantine.dfy ===
/** The quarantine rename: `os.rename(folder, folder + ".corrupted")`, as a
    change from one snapshot to the next, and the failure policies that
    decide whether a failed model load quarantines its folder.

    diffusers_unet_loader.py:20-31, sd15_unet_loader.py:17-28,
    sdxl_unet_loader.py:17-28, sdxl_combined_loader.py:83-95 and
    sd15_combined_loader.py:90-96 each define their own `handle_corrupted_file`.
    The four that re-raise a PermissionError from the rename as a fresh
    PermissionError naming the folder behave exactly like the one that
    re-raises it unchanged, because the rename's own error already names the
    folder; one `HandleCorrupted` models all five. */
module Quarantine {
  import opened Paths
  import opened Outcomes
  import opened Fs

  /** The name the folder gets: `unet_folder + ".corrupted"`. */
  function CorruptedName(n: Name): (r: Name)
    ensures |r| == |n| + 10 && r[..|n|] == n && StringEndsWith(r, ".corrupted")
  {
    assert '/' !in ".corrupted";
    n + ".corrupted"
  }

  /** The listing of the parent with the renamed entry in the place of the old one. */
  function Relabel(listing: seq<Name>, from: Name, to: Name): (r: seq<Name>)
    ensures |r| == |listing|
    ensures forall i :: 0 <= i < |r| ==> r[i] == (if listing[i] == from then to else listing[i])
  {
    seq(|listing|, i requires 0 <= i < |listing| => if listing[i] == from then to else listing[i])
  }

  /** `os.rename(parent/name, parent/name.corrupted)` on the snapshot. It
      fails with FileNotFoundError when the folder is missing, with
      PermissionError when its parent directory is not writable, and with
      FileExistsError when the target already exists; otherwise the folder's
      whole subtree moves to the new name. */
  function HandleCorrupted(fs: Snapshot, parent: Path, name: Name): (r: Result<Snapshot>)
    ensures var p := Resolve(fs, parent);
            r.Ok? <==> p + [name] in fs.nodes && IsDirKey(fs, p) && fs.nodes[p].mode.write
                       && p + [CorruptedName(name)] !in fs.nodes
    ensures r.Err? ==> r.error.kind in {FileNotFoundError, PermissionError, FileExistsError}
    ensures r.Ok? ==> !Exists(r.value, parent.Child(name)) && Exists(r.value, parent.Child(CorruptedName(name)))
    ensures r.Ok? ==> r.value.cwd == fs.cwd
    ensures r.Ok? ==>
      var p := Resolve(fs, parent);
      forall s :: p + [name] + s in fs.nodes ==>
        p + [CorruptedName(name)] + s in r.value.nodes
        && r.value.nodes[p + [CorruptedName(name)] + s] == fs.nodes[p + [name] + s]
    ensures r.Ok? ==>
      var p := Resolve(fs, parent);
      forall k :: k in fs.nodes && k != p && !(p + [name] <= k) && !(p + [CorruptedName(name)] <= k) ==>
        k in r.value.nodes && r.value.nodes[k] == fs.nodes[k]
    ensures r.Ok? ==>
      var p := Resolve(fs, parent);
      && (forall s :: p + [name] + s !in r.value.nodes)
      && p in r.value.nodes
      && r.value.nodes[p] == Dir(Relabel(fs.nodes[p].listing, name, CorruptedName(name)), fs.nodes[p].mode)
      && (forall k :: k in r.value.nodes ==>
            || k == p
            || (k in fs.nodes && !(p + [name] <= k))
            || (p + [CorruptedName(name)] <= k && p + [name] + k[|p| + 1..] in fs.nodes))
  {
    var p := Resolve(fs, parent);
    var src := p + [name];
    var dst := p + [CorruptedName(name)];
    if src !in fs.nodes then Err(Error(FileNotFoundError, parent.Child(name)))
    else if !IsDirKey(fs, p) || !fs.nodes[p].mode.write then Err(Error(PermissionError, parent.Child(name)))
    else if dst in fs.nodes then Err(Error(FileExistsError, parent.Child(CorruptedName(name))))
    else
      var m := Moved(fs.nodes, p, name, CorruptedName(name));
      MovedFrame(fs.nodes, p, name, CorruptedName(name));
      ResolveChild(fs, parent, name);
      ResolveChild(fs, parent, CorruptedName(name));
      Ok(Snapshot(fs.cwd, m))
  }

  /** The entries of `nodes` outside the subtree at `src`. */
  function Kept(nodes: map<seq<Name>, Node>, src: seq<Name>): (m: map<seq<Name>, Node>)
    ensures forall k :: k in m <==> k in nodes && !(src <= k)
    ensures forall k :: k in m ==> m[k] == nodes[k]
  {
    map k | k in nodes && !(src <= k) :: nodes[k]
  }

  /** The subtree of `nodes` at `src`, re-rooted at `dst`. */
  function Transplanted(nodes: map<seq<Name>, Node>, src: seq<Name>, dst: seq<Name>): (m: map<seq<Name>, Node>)
    ensures forall t :: t in m ==> dst <= t && src + t[|dst|..] in nodes && m[t] == nodes[src + t[|dst|..]]
    ensures forall s :: src + s in nodes ==> dst + s in m
  {
    var targets := set k | k in nodes && src <= k :: dst + k[|src|..];
    assert forall t :: t in targets ==> dst <= t && src + t[|dst|..] in nodes by {
      forall t | t in targets
        ensures dst <= t && src + t[|dst|..] in nodes
      {
        var k :| k in nodes && src <= k && t == dst + k[|src|..];
        assert t[|dst|..] == k[|src|..];
        assert src + k[|src|..] == k;
      }
    }
    assert forall s :: src + s in nodes ==> dst + s in targets by {
      forall s | src + s in nodes
        ensures dst + s in targets
      {
        var k := src + s;
        assert src <= k;
        assert dst + k[|src|..] == dst + s;
      }
    }
    map t | t in targets :: nodes[src + t[|dst|..]]
  }

  /** The node map after moving the subtree at `p + [a]` to `p + [b]` and
      relabelling the entry in `p`'s listing: a key is present exactly when
      it is `p`, lies outside the old subtree, or is the image of a key in
      it; an image carries the moved node, anything else keeps its own. */
  function Moved(nodes: map<seq<Name>, Node>, p: seq<Name>, a: Name, b: Name): (m: map<seq<Name>, Node>)
    requires p in nodes && nodes[p].Dir? && a != b
    ensures forall k :: k in m <==>
      || k == p
      || (k in nodes && !(p + [a] <= k))
      || (p + [b] <= k && p + [a] + k[|p| + 1..] in nodes)
    ensures forall k :: k in m && k != p ==>
      m[k] == if p + [b] <= k && p + [a] + k[|p| + 1..] in nodes then nodes[p + [a] + k[|p| + 1..]] else nodes[k]
    ensures p in m && m[p] == Dir(Relabel(nodes[p].listing, a, b), nodes[p].mode)
  {
    var src := p + [a];
    var dst := p + [b];
    var kept := Kept(nodes, src);
    var moved := Transplanted(nodes, src, dst);
    assert forall k :: k in moved ==> k[|dst|..] == k[|p| + 1..];
    assert forall k :: dst <= k && src + k[|p| + 1..] in nodes ==> k in moved by {
      forall k | dst <= k && src + k[|p| + 1..] in nodes ensures k in moved {
        assert dst + k[|p| + 1..] == k;
      }
    }
    (kept + moved)[p := Dir(Relabel(nodes[p].listing, a, b), nodes[p].mode)]
  }

  /** The frame of `Moved`: the old subtree is gone, its image is in place,
      and every key outside both subtrees keeps its node. */
  lemma MovedFrame(nodes: map<seq<Name>, Node>, p: seq<Name>, a: Name, b: Name)
    requires p in nodes && nodes[p].Dir? && a != b
    ensures var m := Moved(nodes, p, a, b);
      && (forall s :: p + [a] + s !in m)
      && (p + [a] in nodes ==> p + [b] in m)
      && (forall s :: p + [a] + s in nodes ==> p + [b] + s in m && m[p + [b] + s] == nodes[p + [a] + s])
      && (forall k :: k in nodes && k != p && !(p + [a] <= k) ==> k in m)
      && (forall k :: k in nodes && k != p && !(p + [a] <= k) && !(p + [b] <= k) ==> m[k] == nodes[k])
  {
    var m := Moved(nodes, p, a, b);
    forall s ensures p + [a] + s !in m {
      var k := p + [a] + s;
      assert k[|p|] == a != b;
      assert !(p + [b] <= k) && p + [a] <= k && k != p;
    }
    forall s | p + [a] + s in nodes
      ensures p + [b] + s in m && m[p + [b] + s] == nodes[p + [a] + s]
    {
      var k := p + [b] + s;
      assert k[|p| + 1..] == s;
      assert p + [b] <= k && k != p;
    }
    assert p + [a] in nodes ==> p + [b] in m by {
      assert p + [a] + [] == p + [a] && p + [b] + [] == p + [b];
    }
  }

  /** Every name a directory of `nodes` lists is itself a key of `nodes`:
      `Fs.Consistent` on a bare node map. */
  ghost predicate ListingsClosed(nodes: map<seq<Name>, Node>) {
    forall k, i :: k in nodes && nodes[k].Dir? && 0 <= i < |nodes[k].listing| ==> k + [nodes[k].listing[i]] in nodes
  }

  /** The relabelled parent lists only names that exist after the move. */
  lemma MovedParentClosed(nodes: map<seq<Name>, Node>, p: seq<Name>, a: Name, b: Name, i: nat)
    requires p in nodes && nodes[p].Dir? && a != b && ListingsClosed(nodes)
    requires i < |nodes[p].listing|
    ensures p + [Moved(nodes, p, a, b)[p].listing[i]] in Moved(nodes, p, a, b)
  {
    var before := nodes[p].listing[i];
    assert p + [before] in nodes;
    if before == a {
      assert (p + [b])[|p| + 1..] == [] && p + [a] + [] == p + [before];
    } else {
      assert (p + [before])[|p|] != a;
    }
  }

  /** A moved directory lists only names whose images were moved with it. */
  lemma MovedImageClosed(nodes: map<seq<Name>, Node>, p: seq<Name>, a: Name, b: Name, k: seq<Name>, n: Name)
    requires p in nodes && nodes[p].Dir? && a != b && ListingsClosed(nodes)
    requires p + [b] <= k && p + [a] + k[|p| + 1..] in nodes
    requires nodes[p + [a] + k[|p| + 1..]].Dir? && n in nodes[p + [a] + k[|p| + 1..]].listing
    ensures k + [n] in Moved(nodes, p, a, b)
  {
    var src := p + [a] + k[|p| + 1..];
    var i :| 0 <= i < |nodes[src].listing| && nodes[src].listing[i] == n;
    assert src + [n] in nodes;
    var kn := k + [n];
    assert kn[|p| + 1..] == k[|p| + 1..] + [n];
    assert p + [a] + kn[|p| + 1..] == src + [n];
    assert p + [b] <= kn;
  }

  /** A directory outside the old subtree lists only names outside it. */
  lemma MovedKeptClosed(nodes: map<seq<Name>, Node>, p: seq<Name>, a: Name, b: Name, k: seq<Name>, n: Name)
    requires p in nodes && nodes[p].Dir? && a != b && ListingsClosed(nodes)
    requires k in nodes && k != p && !(p + [a] <= k)
    requires nodes[k].Dir? && n in nodes[k].listing
    ensures k + [n] in Moved(nodes, p, a, b)
  {
    var i :| 0 <= i < |nodes[k].listing| && nodes[k].listing[i] == n;
    assert k + [n] in nodes;
    assert |k| >= |p| + 1 ==> (k + [n])[..|p| + 1] == k[..|p| + 1];
    assert (k + [n])[..|k|] == k && (p + [a])[..|p|] == p;
  }

  /** Moving a subtree keeps the listings closed. */
  lemma MovedKeepsClosed(nodes: map<seq<Name>, Node>, p: seq<Name>, a: Name, b: Name)
    requires p in nodes && nodes[p].Dir? && a != b && ListingsClosed(nodes)
    ensures ListingsClosed(Moved(nodes, p, a, b))
  {
    var m := Moved(nodes, p, a, b);
    forall k, i | k in m && m[k].Dir? && 0 <= i < |m[k].listing|
      ensures k + [m[k].listing[i]] in m
    {
      var n := m[k].listing[i];
      if k == p {
        MovedParentClosed(nodes, p, a, b, i);
      } else if p + [b] <= k && p + [a] + k[|p| + 1..] in nodes {
        MovedImageClosed(nodes, p, a, b, k, n);
      } else {
        MovedKeptClosed(nodes, p, a, b, k, n);
      }
    }
  }

  /** The rename keeps a consistent snapshot consistent: when the folder
      exists, its parent is a writable directory and the target is free, the
      rename succeeds and every name a directory lists afterwards, the
      relabelled parent's included, exists. */
  lemma HandleCorruptedKeepsConsistent(fs: Snapshot, parent: Path, name: Name)
    requires Consistent(fs)
    requires var p := Resolve(fs, parent);
      p + [name] in fs.nodes && IsDirKey(fs, p) && fs.nodes[p].mode.write && p + [CorruptedName(name)] !in fs.nodes
    ensures HandleCorrupted(fs, parent, name).Ok?
    ensures Consistent(HandleCorrupted(fs, parent, name).value)
  {
    var p := Resolve(fs, parent);
    assert ListingsClosed(fs.nodes);
    MovedKeepsClosed(fs.nodes, p, name, CorruptedName(name));
    assert HandleCorrupted(fs, parent, name).value.nodes == Moved(fs.nodes, p, name, CorruptedName(name));
  }

  /** How a node reacts when `comfy.sd.load_unet` fails. */
  datatype Policy =
      /** diffusers_unet_loader.py: every failure quarantines. */
    | QuarantineAny
      /** sd15_unet_loader.py, sdxl_unet_loader.py, sdxl_combined_loader.py:
          a PermissionError is raised afresh naming the weights file, anything
          else quarantines. */
    | QuarantineUnlessPermission
      /** sd15_combined_loader.py: only a PermissionError quarantines;
          anything else propagates. */
    | QuarantineOnPermission

  predicate Quarantines(policy: Policy, kind: ErrorKind) {
    match policy
    case QuarantineAny => true
    case QuarantineUnlessPermission => kind != PermissionError
    case QuarantineOnPermission => kind == PermissionError
  }

  /** The error a node raises, and the snapshot it leaves, after loading
      `weights` from the folder `parent/name` failed with `e`. A quarantine
      re-raises `e` once the rename succeeded; a failed rename raises the
      rename's error instead. */
  function OnLoadFailure(fs: Snapshot, policy: Policy, parent: Path, name: Name, weights: Path, e: Error): (r: (Error, Snapshot))
    ensures !Quarantines(policy, e.kind) ==> r.1 == fs
    ensures !Quarantines(policy, e.kind) && policy == QuarantineUnlessPermission ==> r.0 == Error(PermissionError, weights)
    ensures !Quarantines(policy, e.kind) && policy == QuarantineOnPermission ==> r.0 == e
    ensures Quarantines(policy, e.kind) && HandleCorrupted(fs, parent, name).Ok? ==>
      r == (e, HandleCorrupted(fs, parent, name).value)
    ensures Quarantines(policy, e.kind) && HandleCorrupted(fs, parent, name).Err? ==>
      r == (HandleCorrupted(fs, parent, name).error, fs)
    ensures r.1 != fs ==>
      Quarantines(policy, e.kind) && !Exists(r.1, parent.Child(name)) && Exists(r.1, parent.Child(CorruptedName(name)))
    ensures r.0.kind == e.kind || (Quarantines(policy, e.kind) && r.0.kind in {FileNotFoundError, PermissionError, FileExistsError})
  {
    if Quarantines(policy, e.kind) then
      match HandleCorrupted(fs, parent, name)
      case Ok(after) => (e, after)
      case Err(renameError) => (renameError, fs)
    else if policy == QuarantineUnlessPermission then (Error(PermissionError, weights), fs)
    else (e, fs)
  }

  /** The two SD1.5 UNET paths part on every error: exactly one of them
      quarantines, and the combined node's policy is the mirror image of the
      standalone node's. */
  lemma PoliciesAreComplementary(kind: ErrorKind)
    ensures Quarantines(QuarantineUnlessPermission, kind) != Quarantines(QuarantineOnPermission, kind)
    ensures Quarantines(QuarantineAny, kind)
  {
  }
}

=== FILE: unet_nodes.dfy ===
/** The UNET nodes: diffusers_unet_loader.py, unet_loader.py,
    sd15_unet_loader.py and sdxl_unet_loader.py. Each finds a weights file
    in a unet (or transformer) folder and hands it to `comfy.sd.load_unet`;
    they differ in how they classify, which extensions they accept, whether
    they check the file exists, and what a failed load does to the folder. */
module UnetNodes {
  import opened Paths
  import opened Outcomes
  import opened Fs
  import opened Families
  import opened Weights
  import opened Discovery
  import opened Layout
  import opened Quarantine
  import opened Host

  /** `comfy.sd.load_unet(weights)` with `policy` deciding what a failure
      does to the folder `parent/name`. */
  function LoadUnetUnder(comfy: Comfy, fs: Snapshot, policy: Policy, parent: Path, name: Name, weights: Path): (r: Step<Handle>)
    ensures r.calls == [LoadUnet(weights)]
    ensures comfy.loadUnet(weights).Ok? ==> r.result == comfy.loadUnet(weights) && r.fs == fs
    ensures comfy.loadUnet(weights).Err? ==>
      r.result.Err? && (r.result.error, r.fs) == OnLoadFailure(fs, policy, parent, name, weights, comfy.loadUnet(weights).error)
  {
    match comfy.loadUnet(weights)
    case Ok(m) => Step(Ok(m), fs, [LoadUnet(weights)])
    case Err(e) =>
      var (raised, after) := OnLoadFailure(fs, policy, parent, name, weights, e);
      Step(Err(raised), after, [LoadUnet(weights)])
  }

  /** The tail every folder-based UNET load shares: the weights lookup in
      `parent/unet`, the optional existence check, then the load under `policy`.
      Nothing is loaded and nothing renamed unless the lookup succeeded. */
  function LoadFromUnetFolder(comfy: Comfy, fs: Snapshot, policy: Policy, accept: Accept, parent: Path, checkExists: bool): (r: Step<Handle>)
    ensures var found := FindWeightPath(fs, parent.Child(Unet), accept);
      && (found.Err? ==> r == Step(Err(found.error), fs, []))
      && (found.Ok? && checkExists && !Exists(fs, found.value) ==> r == Step(Err(Error(FileNotFoundError, found.value)), fs, []))
      && (found.Ok? && (checkExists ==> Exists(fs, found.value)) ==> r == LoadUnetUnder(comfy, fs, policy, parent, Unet, found.value))
  {
    match FindWeightPath(fs, parent.Child(Unet), accept)
    case Err(e) => Step(Err(e), fs, [])
    case Ok(w) =>
      if checkExists && !Exists(fs, w) then Step(Err(Error(FileNotFoundError, w)), fs, [])
      else LoadUnetUnder(comfy, fs, policy, parent, Unet, w)
  }

  /** `DiffusersUNETLoader.load_unet` of diffusers_unet_loader.py: classify
      with the two-way rule, then load the first ".safetensors" or ".bin"
      file of `<sub>/unet`; any load failure quarantines the unet folder. */
  function DiffusersUnetLoad(comfy: Comfy, fs: Snapshot, inst: Install, sub: Path): (r: Step<Handle>)
    ensures var subDir := Join(DiffusersDir(inst), sub);
      && (DetectTwoWay(fs, subDir).Err? ==> r == Step(Err(DetectTwoWay(fs, subDir).error), fs, []))
      && (DetectTwoWay(fs, subDir).Ok? ==> r == LoadFromUnetFolder(comfy, fs, QuarantineAny, SafetensorsOrBin, subDir, true))
    ensures r.calls == [] ==> r.result.Err? && r.result.error.kind != ValueError && r.fs == fs
  {
    var subDir := Join(DiffusersDir(inst), sub);
    match DetectTwoWay(fs, subDir)
    case Err(e) => Step(Err(e), fs, [])
    case Ok(t) =>
      if t == SD15 || t == SDXL then LoadFromUnetFolder(comfy, fs, QuarantineAny, SafetensorsOrBin, subDir, true)
      else Step(Err(Error(ValueError, subDir)), fs, [])
  }

  /** Every failed load of the diffusers UNET node quarantines: the unet
      folder is renamed and the load's error re-raised, or, when the rename
      fails, the rename's error is raised and nothing moves. */
  lemma DiffusersUnetQuarantinesEveryFailure(comfy: Comfy, fs: Snapshot, inst: Install, sub: Path, w: Path)
    requires DiffusersUnetLoad(comfy, fs, inst, sub).calls == [LoadUnet(w)]
    requires comfy.loadUnet(w).Err?
    ensures var subDir := Join(DiffusersDir(inst), sub);
      var r := DiffusersUnetLoad(comfy, fs, inst, sub);
      var renamed := HandleCorrupted(fs, subDir, Unet);
      && (renamed.Ok? ==> r.result == comfy.loadUnet(w) && r.fs == renamed.value
                           && !Exists(r.fs, subDir.Child(Unet)) && Exists(r.fs, subDir.Child(CorruptedName(Unet))))
      && (renamed.Err? ==> r.result == Err(renamed.error) && r.fs == fs)
  {
    var subDir := Join(DiffusersDir(inst), sub);
    assert DetectTwoWay(fs, subDir).Ok?;
    var r := DiffusersUnetLoad(comfy, fs, inst, sub);
    assert r == LoadFromUnetFolder(comfy, fs, QuarantineAny, SafetensorsOrBin, subDir, true);
    var found := FindWeightPath(fs, subDir.Child(Unet), SafetensorsOrBin);
    assert found == Ok(w);
    assert r == LoadUnetUnder(comfy, fs, QuarantineAny, subDir, Unet, w);
    assert (r.result.error, r.fs) == OnLoadFailure(fs, QuarantineAny, subDir, Unet, w, comfy.loadUnet(w).error);
  }

  /** `DiffusersLoaderBase`'s re-raising of a loader failure in
      unet_loader.py: PermissionError and FileNotFoundError are raised
      afresh naming the weights file; anything else passes unchanged. */
  function Rewrap(e: Error, weights: Path): (r: Error)
    ensures r.kind == e.kind
    ensures e.kind in {PermissionError, FileNotFoundError} ==> r.about == weights
    ensures e.kind !in {PermissionError, FileNotFoundError} ==> r == e
  {
    if e.kind in {PermissionError, FileNotFoundError} then Error(e.kind, weights) else e
  }

  /** `DiffusersUNETLoader.load_model` of unet_loader.py. The folder is
      transformer for SD3 and unet otherwise; a missing folder raises before
      the lookup; no failure renames anything. */
  function UnetLoaderLoad(comfy: Comfy, fs: Snapshot, u: Utils, sub: Path): (r: Step<Handle>)
    ensures r.fs == fs
    ensures u.basePath.Err? ==> r.result == Err(u.basePath.error) && r.calls == []
    ensures u.basePath.Ok? ==>
      var subDir := Join(u.basePath.value, sub);
      && (DetectFourWay(fs, subDir).Err? ==> r.result == Err(DetectFourWay(fs, subDir).error) && r.calls == [])
      && (DetectFourWay(fs, subDir).Ok? ==>
            var folder := subDir.Child(UnetFolderName(DetectFourWay(fs, subDir).value));
            && (!Exists(fs, folder) ==> r.result == Err(Error(FileNotFoundError, folder)) && r.calls == [])
            && (Exists(fs, folder) && u.find(folder).Err? ==> r.result == Err(u.find(folder).error) && r.calls == [])
            && (Exists(fs, folder) && u.find(folder).Ok? ==>
                  var w := u.find(folder).value;
                  && r.calls == [LoadUnet(w)]
                  && (comfy.loadUnet(w).Ok? ==> r.result == comfy.loadUnet(w))
                  && (comfy.loadUnet(w).Err? ==> r.result == Err(Rewrap(comfy.loadUnet(w).error, w)))))
  {
    match u.basePath
    case Err(e) => Step(Err(e), fs, [])
    case Ok(base) =>
      var subDir := Join(base, sub);
      match DetectFourWay(fs, subDir)
      case Err(e) => Step(Err(e), fs, [])
      case Ok(t) =>
        var folder := subDir.Child(UnetFolderName(t));
        if !Exists(fs, folder) then Step(Err(Error(FileNotFoundError, folder)), fs, [])
        else match u.find(folder)
          case Err(e) => Step(Err(e), fs, [])
          case Ok(w) =>
            match comfy.loadUnet(w)
            case Ok(m) => Step(Ok(m), fs, [LoadUnet(w)])
            case Err(e) => Step(Err(Rewrap(e, w)), fs, [LoadUnet(w)])
  }

  /** A missing folder is reported before `find_model_file` runs: the result
      does not depend on the lookup helper. */
  lemma MissingFolderSkipsLookup(comfy: Comfy, fs: Snapshot, u1: Utils, u2: Utils, sub: Path)
    requires u1.basePath.Ok? && u2.basePath == u1.basePath
    requires DetectFourWay(fs, Join(u1.basePath.value, sub)).Ok?
    requires !Exists(fs, Join(u1.basePath.value, sub).Child(UnetFolderName(DetectFourWay(fs, Join(u1.basePath.value, sub)).value)))
    ensures UnetLoaderLoad(comfy, fs, u1, sub) == UnetLoaderLoad(comfy, fs, u2, sub)
  {
  }

  /** An AuraFlow directory has a transformer folder, but the node looks for
      unet: without one it always fails, before any lookup or load. */
  lemma AuraFlowWithoutUnetFails(comfy: Comfy, fs: Snapshot, u: Utils, sub: Path)
    requires u.basePath.Ok? && DetectFourWay(fs, Join(u.basePath.value, sub)) == Ok(AuraFlow)
    requires !Exists(fs, Join(u.basePath.value, sub).Child(Unet))
    ensures Exists(fs, Join(u.basePath.value, sub).Child(Transformer))
    ensures UnetLoaderLoad(comfy, fs, u, sub) ==
      Step(Err(Error(FileNotFoundError, Join(u.basePath.value, sub).Child(Unet))), fs, [])
  {
  }

  /** `load_unet` of sd15_unet_loader.py (`family` "SD15") and
      sdxl_unet_loader.py (`family` "SDXL"): the first ".safetensors" file of
      `<root>/models/diffusers/<family>/<sub>/unet`, checked to exist; a
      PermissionError is raised afresh with no rename, anything else
      quarantines the folder. */
  function FamilyUnetLoad(comfy: Comfy, fs: Snapshot, inst: Install, family: Name, sub: Path): (r: Step<Handle>)
    ensures var parent := Join(FamilyDir(inst, family), sub);
      r == LoadFromUnetFolder(comfy, fs, QuarantineUnlessPermission, SafetensorsOnly, parent, true)
    ensures forall w :: r.calls == [LoadUnet(w)] ==> StringEndsWith(w.parts[|w.parts| - 1], ".safetensors")
  {
    var parent := Join(FamilyDir(inst, family), sub);
    var r := LoadFromUnetFolder(comfy, fs, QuarantineUnlessPermission, SafetensorsOnly, parent, true);
    forall w | r.calls == [LoadUnet(w)] ensures StringEndsWith(w.parts[|w.parts| - 1], ".safetensors") {
      var found := FindWeightPath(fs, parent.Child(Unet), SafetensorsOnly);
      assert found.Ok? && w == found.value;
      SafetensorsOnlyNeverBin(fs, parent.Child(Unet));
    }
    r
  }

  /** On a PermissionError from the loader the SD1.5 and SDXL UNET nodes
      leave the folder where it is and name the weights file; on any other
      error the folder is renamed to "unet.corrupted" when it can be. */
  lemma FamilyUnetFailurePolicy(comfy: Comfy, fs: Snapshot, inst: Install, family: Name, sub: Path, w: Path)
    requires FamilyUnetLoad(comfy, fs, inst, family, sub).calls == [LoadUnet(w)]
    requires comfy.loadUnet(w).Err?
    ensures var r := FamilyUnetLoad(comfy, fs, inst, family, sub);
      var parent := Join(FamilyDir(inst, family), sub);
      && (comfy.loadUnet(w).error.kind == PermissionError ==> r.result == Err(Error(PermissionError, w)) && r.fs == fs)
      && (comfy.loadUnet(w).error.kind != PermissionError && HandleCorrupted(fs, parent, Unet).Ok? ==>
            r.result == comfy.loadUnet(w) && !Exists(r.fs, parent.Child(Unet)))
      && (comfy.loadUnet(w).error.kind != PermissionError && HandleCorrupted(fs, parent, Unet).Err? ==>
            r.result == Err(HandleCorrupted(fs, parent, Unet).error) && r.fs == fs)
  {
    var parent := Join(FamilyDir(inst, family), sub);
    assert FindWeightPath(fs, parent.Child(Unet), SafetensorsOnly) == Ok(w);
  }
}

=== FILE: vae_nodes.dfy ===
/** The VAE nodes: diffusers_vae_loader.py, sdxl_vae_loader.py and
    Old/sd15_vae_loader.py. Each finds a weights file in a vae folder,
    checks it exists, and builds the VAE from its state dict. */
module VaeNodes {
  import opened Paths
  import opened Outcomes
  import opened Fs
  import opened Families
  import opened Weights
  import opened Layout
  import opened Host

  /** The tail every VAE load shares: the weights lookup in `folder`, the
      optional existence check, then `load_torch_file` and `VAE(sd=...)`.
      Nothing is loaded unless the lookup succeeded. */
  function LoadFromVaeFolder(comfy: Comfy, fs: Snapshot, folder: Path, accept: Accept, checkExists: bool): (r: Traced<Handle>)
    ensures var found := FindWeightName(fs, folder, accept);
      && (found.Err? ==> r == Traced(Err(found.error), []))
      && (found.Ok? && checkExists && !Exists(fs, folder.Child(found.value)) ==>
            r == Traced(Err(Error(FileNotFoundError, folder.Child(found.value))), []))
      && (found.Ok? && (checkExists ==> Exists(fs, folder.Child(found.value))) ==>
            r == VaeLoad(comfy, folder.Child(found.value)))
    ensures r.calls != [] ==> r.calls[0] == LoadTorchFile(FindWeightPath(fs, folder, accept).value)
  {
    match FindWeightName(fs, folder, accept)
    case Err(e) => Traced(Err(e), [])
    case Ok(n) =>
      if checkExists && !Exists(fs, folder.Child(n)) then Traced(Err(Error(FileNotFoundError, folder.Child(n))), [])
      else VaeLoad(comfy, folder.Child(n))
  }

  /** `DiffusersVAELoader.load_vae` of diffusers_vae_loader.py: the base must
      exist, the two-way rule must classify the directory, and then the first
      ".safetensors" or ".bin" file of `<sub>/vae` is loaded whatever the
      family. */
  function DiffusersVaeLoad(comfy: Comfy, fs: Snapshot, inst: Install, sub: Path): (r: Traced<Handle>)
    ensures !Exists(fs, DiffusersDir(inst)) ==> r == Traced(Err(Error(FileNotFoundError, DiffusersDir(inst))), [])
    ensures Exists(fs, DiffusersDir(inst)) ==>
      var subDir := Join(DiffusersDir(inst), sub);
      && (DetectTwoWay(fs, subDir).Err? ==> r == Traced(Err(Error(FileNotFoundError, subDir)), []))
      && (DetectTwoWay(fs, subDir).Ok? ==> r == LoadFromVaeFolder(comfy, fs, subDir.Child(Vae), SafetensorsOrBin, true))
  {
    match ExistingBase(fs, DiffusersDir(inst))
    case Err(e) => Traced(Err(e), [])
    case Ok(base) =>
      var subDir := Join(base, sub);
      match DetectTwoWay(fs, subDir)
      case Err(e) => Traced(Err(e), [])
      case Ok(_) => LoadFromVaeFolder(comfy, fs, subDir.Child(Vae), SafetensorsOrBin, true)
  }

  /** Classification runs first: a model directory with a vae folder but no
      text_encoder never reaches the VAE, however complete the vae folder. */
  lemma VaeWithoutTextEncoderFails(comfy: Comfy, fs: Snapshot, inst: Install, sub: Path)
    requires Exists(fs, DiffusersDir(inst))
    requires !Exists(fs, Join(DiffusersDir(inst), sub).Child(TextEncoder))
    ensures DiffusersVaeLoad(comfy, fs, inst, sub) == Traced(Err(Error(FileNotFoundError, Join(DiffusersDir(inst), sub))), [])
  {
  }

  /** Two snapshots that agree on the vae folder and on whether classification
      succeeds give the same VAE load: the detected family plays no part. */
  lemma DiffusersVaeIgnoresFamily(comfy: Comfy, fs1: Snapshot, fs2: Snapshot, inst: Install, sub: Path)
    requires Exists(fs1, DiffusersDir(inst)) && Exists(fs2, DiffusersDir(inst))
    requires DetectTwoWay(fs1, Join(DiffusersDir(inst), sub)).Ok? && DetectTwoWay(fs2, Join(DiffusersDir(inst), sub)).Ok?
    requires var vae := Join(DiffusersDir(inst), sub).Child(Vae);
      FindWeightName(fs1, vae, SafetensorsOrBin) == FindWeightName(fs2, vae, SafetensorsOrBin)
      && (FindWeightName(fs1, vae, SafetensorsOrBin).Ok? ==>
            Exists(fs1, vae.Child(FindWeightName(fs1, vae, SafetensorsOrBin).value))
            == Exists(fs2, vae.Child(FindWeightName(fs1, vae, SafetensorsOrBin).value)))
    ensures DiffusersVaeLoad(comfy, fs1, inst, sub) == DiffusersVaeLoad(comfy, fs2, inst, sub)
  {
  }

  /** `load_vae` of sdxl_vae_loader.py (`family` "SDXL", ".safetensors"
      only) and of Old/sd15_vae_loader.py (`family` "SD15", ".safetensors" or
      ".bin"): the family base must exist; the first accepted file of
      `<family>/<sub>/vae` is checked to exist and loaded. The Old/ node
      runs under `InstallOf(<plugin> + [OldFolder])`, the plugin's parent,
      not under the ComfyUI root the other nodes use. */
  function FamilyVaeLoad(comfy: Comfy, fs: Snapshot, inst: Install, family: Name, accept: Accept, sub: Path): (r: Traced<Handle>)
    ensures !Exists(fs, FamilyDir(inst, family)) ==> r == Traced(Err(Error(FileNotFoundError, FamilyDir(inst, family))), [])
    ensures Exists(fs, FamilyDir(inst, family)) ==>
      r == LoadFromVaeFolder(comfy, fs, Join(FamilyDir(inst, family), sub).Child(Vae), accept, true)
  {
    match ExistingBase(fs, FamilyDir(inst, family))
    case Err(e) => Traced(Err(e), [])
    case Ok(base) => LoadFromVaeFolder(comfy, fs, Join(base, sub).Child(Vae), accept, true)
  }

  /** The file each family node loads: the SDXL node only ever a
      ".safetensors" file; on a consistent snapshot both reach the loader
      exactly when their lookup succeeds, so the existence check never
      fires. */
  lemma FamilyVaeLoadsFoundFile(comfy: Comfy, fs: Snapshot, inst: Install, family: Name, accept: Accept, sub: Path)
    requires Consistent(fs)
    requires Exists(fs, FamilyDir(inst, family))
    ensures var vae := Join(FamilyDir(inst, family), sub).Child(Vae);
      var r := FamilyVaeLoad(comfy, fs, inst, family, accept, sub);
      && (r.calls != [] <==> FindWeightName(fs, vae, accept).Ok?)
      && (r.calls != [] ==> r.calls[0] == LoadTorchFile(vae.Child(FindWeightName(fs, vae, accept).value)))
      && (r.calls != [] && accept == SafetensorsOnly ==>
            StringEndsWith(FindWeightName(fs, vae, accept).value, ".safetensors"))
  {
    var vae := Join(FamilyDir(inst, family), sub).Child(Vae);
    if FindWeightName(fs, vae, accept).Ok? {
      FoundWeightExists(fs, vae, accept);
      if accept == SafetensorsOnly {
        SafetensorsOnlyNeverBin(fs, vae);
      }
    }
  }
}

=== FILE: weights.dfy ===
/** Weight-file selection: the `find_model_file` / `find_safetensors_file`
    helpers. Each lists a directory and takes the first entry, in listing
    order, whose name ends with an accepted extension. They differ in two
    ways: whether ".bin" is accepted besides ".safetensors", and whether
    the bare file name or the directory joined with it is returned. */
module Weights {
  import opened Paths
  import opened Outcomes
  import opened Fs

  datatype Accept = SafetensorsOnly | SafetensorsOrBin

  predicate Accepted(n: string, accept: Accept) {
    StringEndsWith(n, ".safetensors") || (accept == SafetensorsOrBin && StringEndsWith(n, ".bin"))
  }

  /** `i` is the first position of `names` holding an accepted name. */
  ghost predicate FirstAcceptedAt(names: seq<Name>, accept: Accept, i: nat) {
    i < |names| && Accepted(names[i], accept)
    && forall j :: 0 <= j < i ==> !Accepted(names[j], accept)
  }

  /** The position of the first accepted name, if any. */
  function FirstAccepted(names: seq<Name>, accept: Accept): (r: Option<nat>)
    ensures r.Some? ==> FirstAcceptedAt(names, accept, r.value)
    ensures r.None? ==> forall j :: 0 <= j < |names| ==> !Accepted(names[j], accept)
  {
    if names == [] then None
    else if Accepted(names[0], accept) then Some(0)
    else match FirstAccepted(names[1..], accept)
      case None => None
      case Some(i) =>
        assert forall j :: 1 <= j < |names| ==> names[j] == names[1..][j - 1];
        Some(i + 1)
  }

  /** The bare-name helpers: `find_model_file` of diffusers_clip_loader.py,
      diffusers_vae_loader.py, sd15_clip_loader.py and Old/sd15_vae_loader.py
      (`SafetensorsOrBin`), `find_safetensors_file` of sdxl_clip_loader.py
      and sdxl_vae_loader.py (`SafetensorsOnly`). */
  function FindWeightName(fs: Snapshot, dir: Path, accept: Accept): (r: Result<Name>)
    ensures ListDir(fs, dir).Err? ==> r == Err(ListDir(fs, dir).error)
    ensures ListDir(fs, dir).Ok? ==>
      var names := ListDir(fs, dir).value;
      && (r.Ok? <==> exists i :: 0 <= i < |names| && Accepted(names[i], accept))
      && (r.Ok? ==> exists i: nat :: FirstAcceptedAt(names, accept, i) && names[i] == r.value)
      && (r.Err? ==> r.error == Error(FileNotFoundError, dir))
    ensures r.Ok? ==> Accepted(r.value, accept)
  {
    var names :- ListDir(fs, dir);
    match FirstAccepted(names, accept)
    case Some(i) => Ok(names[i])
    case None => Err(Error(FileNotFoundError, dir))
  }

  /** The joined-path helpers: `find_model_file` of diffusers_unet_loader.py
      (`SafetensorsOrBin`), `find_safetensors_file` of sd15_unet_loader.py,
      sdxl_unet_loader.py, sd15_combined_loader.py and sdxl_combined_loader.py
      (`SafetensorsOnly`). The result is the directory joined with the name
      the bare-name helper finds, and fails exactly when that one does. */
  function FindWeightPath(fs: Snapshot, dir: Path, accept: Accept): (r: Result<Path>)
    ensures r.Ok? <==> FindWeightName(fs, dir, accept).Ok?
    ensures r.Ok? ==> r.value == dir.Child(FindWeightName(fs, dir, accept).value)
    ensures r.Err? ==> r.error == FindWeightName(fs, dir, accept).error
  {
    var n :- FindWeightName(fs, dir, accept);
    Ok(dir.Child(n))
  }

  /** A ".safetensors"-only helper never returns a ".bin" file. */
  lemma SafetensorsOnlyNeverBin(fs: Snapshot, dir: Path)
    requires FindWeightName(fs, dir, SafetensorsOnly).Ok?
    ensures StringEndsWith(FindWeightName(fs, dir, SafetensorsOnly).value, ".safetensors")
  {
  }

  /** In a consistent snapshot the found file exists, so the existence checks
      the loaders make right after a lookup never fail. */
  lemma FoundWeightExists(fs: Snapshot, dir: Path, accept: Accept)
    requires Consistent(fs)
    requires FindWeightName(fs, dir, accept).Ok?
    ensures Exists(fs, dir.Child(FindWeightName(fs, dir, accept).value))
  {
    var names := ListDir(fs, dir).value;
    var i: nat :| FirstAcceptedAt(names, accept, i) && names[i] == FindWeightName(fs, dir, accept).value;
    ListedNameExists(fs, dir, names[i]);
  }

  /** Accepting ".bin" as well can only move the choice earlier in the listing:
      when both helpers succeed on the same directory, the ".safetensors"-only
      one picks the same file or one listed later. */
  lemma {:induction false} WiderAcceptPicksNoLater(names: seq<Name>)
    requires FirstAccepted(names, SafetensorsOnly).Some?
    ensures FirstAccepted(names, SafetensorsOrBin).Some?
    ensures FirstAccepted(names, SafetensorsOrBin).value <= FirstAccepted(names, SafetensorsOnly).value
  {
    var i := FirstAccepted(names, SafetensorsOnly).value;
    assert Accepted(names[i], SafetensorsOrBin);
  }
}
